=== FILE: README.md ===
# Privigen infusion schedule — a Dafny model

This project models the calculator that plans an intravenous immunoglobulin
(Privigen, 10 %) infusion. Here is what it covers:

- **Dose and vials.** The total dose is the patient's weight times the
  prescribed dose per kg, rounded to two decimals. The total volume is ten
  times the dose, rounded to one decimal. The dose is split greedily into
  10 g / 100 ml, 5 g / 50 ml and 2.5 g / 25 ml vials.
- **Rate escalation.** Each rate of the chosen scale (standard or flexible,
  plus 7.2 ml/kg/h for primary immunodeficiency, IDP) gets a 30-minute
  window. The window that covers what is left (within 0.01 ml) delivers
  exactly the rest. If even the last rate falls short, extra windows at that
  rate follow until the total is reached.
- **Vial notes.** A cursor over the flattened vial list tells each step
  which vials it opens.
- **The table.** Each step becomes a row. Times are rounded to whole
  minutes and volumes to one decimal.
- **The form and the screen state.** Validation of the dose per kg against
  the indication's range, the reset of the dose when the indication changes,
  and the update rules that tie the inputs together.

Layout, one module per file:

- `rounding.dfy` (`Rounding`): the JavaScript rounding used by the calculator.
  - `Math.round` is `Floor(x + 1/2)`.
  - `toFixed` rounds halves away from zero.
  - `%` is the truncated remainder.
  - The 0.01 ml tolerance is `Epsilon`.
- `constants.dfy` (`Constants`): indications, dose ranges, rate scales and
  vial presentations.
- `dosing.dfy` (`Dosing`): total dose, greedy vial split, total volume, and
  the flattened vial list.
- `vialcursor.dfy` (`VialCursor`): the vial-opening cursor (`getVialNote`).
- `scheduler.dfy` (`Scheduler`): the rate loop (`Ramp`), the fallback loop
  (`Fallback`), the vial notes (`Annotate`) and the whole `Schedule`.
- `schedule_lemmas.dfy` (`ScheduleLemmas`): induction over the two loops.
- `schedule_properties.dfy` (`ScheduleProperties`): the schedule-level
  properties.
- `trams.dfy` (`Trams`): the displayed rows (`AdminTram`) and the total time.
- `clinical.dfy` (`ClinicalData`): dose validation, indication switching and
  dose edits.
- `app.dfy` (`App`): the screen state and its input events.
- `scenario.dfy` (`Scenario`): a worked example — 70 kg, IDP, 0.4 g/kg, the
  standard scale.

Modelling choices:

- **Real arithmetic.** Quantities are exact `real`s.
- **Time ranges as minutes.** `App.tsx` displays each row's time range as
  the string `"start-end min"` and reads the total time back from it with
  `parseInt`. Here each row carries the two rounded minutes as integers, and
  the total time is the end minute of the last row.
- **Vial notes in a second pass.** In `App.tsx`, `getVialNote` is called
  while each step is pushed, and it mutates a cursor held in the closure.
  Nothing else reads that cursor. A note depends only on the step's start
  and end volume and on the cursor. The model therefore first computes the
  steps, then threads the cursor through them in order (`Annotate`). This
  gives every step the same note as computing it in place.
- **The event handlers of `App.tsx`.**
  - `useEffect` is modelled by `Dispatch`: the handler's state update, then
    the effect, which runs only when the weight or the dose per kg actually
    changed (its dependency list).
  - Each `useMemo` is a pure function of the state (`Volume`, `View`).
  - A negative vial count makes `Array(n)` throw when the table is built.
    `View` returns `None` there. `App.NegativeDoseBreaksTable` shows an input
    sequence that gets there: a negative dose per kg, then a total dose typed
    by hand.

## Model

| member | source | states |
|---|---|---|
| Rounding.JsRound | App.tsx:135 | `Math.round` gives the integer within half a unit, halves going up |
| Rounding.RoundTenths | App.tsx:137-140 | `Math.round(x*10)/10` lies within 0.05 of x (above by at most 0.05, below by less) |
| Rounding.RoundTenthsOnGrid | App.tsx:137-140 | the displayed one-decimal value is a whole number of tenths |
| Rounding.RoundTenthsMonotone | App.tsx:139 | rounding to tenths preserves order, so a rising volume never shows a falling one |
| Rounding.RoundTenthsSnaps | App.tsx:139 | a value within 0.05 below a tenths-grid point displays as that point |
| Rounding.ToFixedTenths | App.tsx:57 | `Rounding.ToFixed` at one decimal (`toFixed(1)`) lands on the tenths grid within 0.05 and keeps the sign; an exact half goes away from zero (x − 0.05 < r ≤ x + 0.05 for x ≥ 0, x − 0.05 ≤ r < x + 0.05 below 0) |
| Rounding.ToFixedHundredths | App.tsx:43 | `Rounding.ToFixed` at two decimals (`toFixed(2)`) lands on the hundredths grid within 0.005 and keeps the sign; an exact half goes away from zero (x − 0.005 < r ≤ x + 0.005 for x ≥ 0, x − 0.005 ≤ r < x + 0.005 below 0) |
| Rounding.Trunc | App.tsx:47-49 | truncation toward zero, on which the `%` of the vial split is built |
| Rounding.JsRemTruncates | App.tsx:48-50 | `Rounding.JsRem`, the `%` of the vial split: for a positive modulus the remainder has the dividend's sign, is smaller than the modulus in size, and differs from the dividend by a whole multiple of it |
| Rounding.JsRemOfNegative | App.tsx:48 | `%` truncates: `-7 % 5` is -2, where a Euclidean remainder would be 3 |
| Rounding.Ceil | App.tsx:52 | `Math.ceil` gives the least integer not below x |
| Rounding.Min | App.tsx:150 | `Math.min` is the smaller argument |
| Rounding.Max | App.tsx:140 | `Math.max` is the larger argument |
| Constants.StandardScaleDoubles | constants.ts:21 | the standard scale has five rates from 0.3 to 4.8, each double the previous, strictly increasing |
| Constants.FlexibleScaleRefinesStandard | constants.ts:21-24 | the flexible scale rises strictly from 0.3 to 4.8 and contains every standard rate |
| Constants.IdpRateTopsBothScales | constants.ts:21-26 | 7.2 exceeds the top of both scales, so appending it keeps each strictly increasing |
| Constants.AppendKeepsIncreasing | App.tsx:82-85 | appending a value above the last element keeps a list strictly increasing |
| Constants.RangesWellFormed | constants.ts:10-18 | every range has 0 < min ≤ max, and a fixed dose equals both min and max and is non-zero |
| Constants.IndicationsComplete | types.ts:2-10 | the indication selector lists all seven indications, each once |
| Constants.PresentationsAreTenPercent | constants.ts:4-8 | every vial presentation holds ten ml per gram: 100, 50 and 25 ml |
| Dosing.TotalDose | App.tsx:42-43 | the total dose is on the hundredths grid, within 0.005 of weight × dose per kg, with the product's sign; a product exactly half way between hundredths is rounded away from zero |
| Dosing.AutoVials | App.tsx:45-52 | for a non-negative dose: as many 10 g vials as fit, one 5 g vial exactly when at least 5 g are left after them, and the fewest 2.5 g vials (at most two) that make the vials hold at least the dose, less than 2.5 g more |
| Dosing.TotalVolume | App.tsx:56-58 | the total volume is on the tenths grid, within 0.05 of ten times the dose, with the dose's sign; a value exactly half way between tenths is rounded away from zero |
| Dosing.HalfHundredthRoundsUp | App.tsx:42-43 | 70.5 kg at 0.25 g/kg (17.625 g) gives a total dose of 17.63 g |
| Dosing.Repeat | App.tsx:72-74 | `Array(n).fill(ml)` has n entries, all equal to ml |
| Dosing.FlattenOrder | App.tsx:71-75 | `Dosing.Flatten`, the vial list: exactly the counted vials, all 100 ml ones, then 50 ml, then 25 ml, never increasing |
| Dosing.InventoryVolume | App.tsx:71-75 | the vial list holds ten ml per gram of the counted vials |
| Dosing.SumAppend | App.tsx:71-75 | the volume of joined vial lists is the sum of their volumes |
| Dosing.SumRepeat | App.tsx:72-74 | n vials of ml each hold n × ml |
| Dosing.ToFixedTenthsBelowGrid | App.tsx:57 | rounding to tenths never lifts a value above a tenths-grid point at or above it |
| Dosing.AutoVialsCoverVolume | App.tsx:41-58 | for a non-negative dose the automatic vials hold at least the total volume and less than 25 ml above ten times the dose |
| VialCursor.Consume | App.tsx:98-114 | the pointer only moves forward and never passes the end of the list |
| VialCursor.ConsumeAnnounces | App.tsx:101-114 | a span announces exactly the vials the cursor moves onto, in list order, each once: the vials after the open one up to the one it is left on, or to the end of the list when it runs off |
| VialCursor.VialNote | App.tsx:90-116 | the pointer stays within the list, and moves only forward unless the step starts at volume zero with vials present |
| VialCursor.VialNoteAnnounces | App.tsx:90-116 | a step from volume zero announces the list from its first vial up to the one left open; any other step announces the vials after the previously open one up to the one left open |
| VialCursor.ConsumeConserves | App.tsx:98-114 | over positive vials the cursor never overfills a vial beyond the tolerance; while the list lasts a span above the tolerance advances the drawn volume by exactly the span, and a span within the tolerance changes nothing; the cursor runs off the end only when the drawn volume plus the span exceeds all the vials hold by more than the tolerance; the next vial is opened exactly when the span exceeds what is left in the open vial by more than the tolerance, so a smaller overflow stays in it |
| VialCursor.SmallOverflowStaysInVial | App.tsx:101-113 | 100.005 ml drawn from a fresh 100 ml vial, with a 50 ml vial next, opens nothing: the overflow lies within the tolerance |
| Scheduler.RateList | App.tsx:81-85 | the rate list is the chosen standard or flexible scale, followed by 7.2 exactly for IDP; it is strictly increasing, positive, and starts at 0.3 |
| Scheduler.FallbackMeasureDrops | App.tsx:148-153 | each fallback window lowers the bound on the windows still to come, so the fallback loop terminates |
| Scheduler.Annotate | App.tsx:90-162 | one note per step, and the cursor stays within the vial list |
| ScheduleLemmas.HalfHourTakesThirty | App.tsx:122-128 | a full window's volume at its rate takes exactly 30 minutes |
| ScheduleLemmas.RampStepFacts | App.tsx:119-145 | one rate-loop step starts where the run stands, delivers a positive volume at the i-th rate, and either finishes the total exactly with at most its window plus the tolerance, or fills its window and leaves more than the tolerance |
| ScheduleLemmas.FallbackStepFacts | App.tsx:149-164 | one fallback window starts where the run stands, delivers a positive volume at the repeated rate, never more than its window, and fills its window unless it is the last; taking the smaller of the window and what is left, the window either is full or ends exactly on the total |
| ScheduleLemmas.FallbackUnfold | App.tsx:148-165 | one turn of the fallback loop: a window, then the loop again, never passing the total |
| ScheduleLemmas.LinkedCons | App.tsx:131-164 | a step followed by a linked run is a linked run |
| ScheduleLemmas.FallbackLinked | App.tsx:148-165 | the fallback loop (`Scheduler.Fallback`) produces windows that run end to end without gaps |
| ScheduleLemmas.FallbackEnds | App.tsx:148 | the fallback loop stops within the tolerance below the total and never passes it |
| ScheduleLemmas.FallbackStops | App.tsx:148-153 | the fallback loop goes on exactly while short of the total by more than the tolerance: every window but the last ends short, and the last is capped at its window, which it either fills or ends exactly on the total |
| ScheduleLemmas.FallbackSteps | App.tsx:148-164 | every fallback window is sound at the repeated rate; all but the last fill their 30 minutes and end more than the tolerance short of the total; the last delivers at most its window, and either fills it or ends exactly on the total |
| ScheduleLemmas.RampLinked | App.tsx:119-166 | the rate loop (`Scheduler.Ramp`) runs end to end, ends within the tolerance below the total, and ends exactly on it when no fallback window was needed |
| ScheduleLemmas.RampStops | App.tsx:124-153 | the run stops at the right step: every step but the last ends more than the tolerance short of the total, and the last delivers at most its window plus the tolerance, and either fills it or ends exactly on the total |
| ScheduleLemmas.RampWindows | App.tsx:119-167 | every step is sound, step k runs at rate k (the last rate once the list is exhausted), and every step but the last fills its window |
| ScheduleLemmas.RampSteps | App.tsx:119-167 | every step is sound, step k runs at rate k (the last rate once the list is exhausted); every step but the last fills its window and ends more than the tolerance short of the total; the last delivers at most its window plus the tolerance, and either fills it or ends exactly on the total |
| ScheduleProperties.ChainAt | App.tsx:118-164 | along a run, step numbers count up, and each step starts after the previous one in volume and in time |
| ScheduleProperties.PositiveDuration | App.tsx:128-151 | every step lasts a positive time |
| ScheduleProperties.ChainOrdered | App.tsx:130-164 | a later step starts no earlier, in volume and in time, than an earlier one ends |
| ScheduleProperties.EmptyWhenNothingToInfuse | App.tsx:69 | a non-positive weight or total volume gives no steps |
| ScheduleProperties.StepsLinked | App.tsx:68-170 | `Scheduler.Steps`, the computed steps: there is one; they are numbered 1, 2, 3, … from minute 0 and volume 0, each starting where the previous ended; the last ends within the tolerance below the total, and exactly on it without fallback windows |
| ScheduleProperties.StepsDeliver | App.tsx:119-165 | every step is sound, runs between volume 0 and the total, and later steps start after earlier ones end |
| ScheduleProperties.StepsEndNearTotal | App.tsx:131-153 | no step passes the total and the last ends within the tolerance of it |
| ScheduleProperties.StepsFollowRates | App.tsx:119-157 | step k runs at rate k, the fallback repeats the last rate, and the rates never decrease |
| ScheduleProperties.RampFollowsRates | App.tsx:119-157 | over any strictly increasing rate list, the rate loop runs step k at the k-th rate (the last once the list is exhausted), so the rates never decrease |
| ScheduleProperties.RampRateAt | App.tsx:119-157 | over any rate list, the rate loop runs step k at the k-th rate, and at the last one once the list is exhausted |
| ScheduleProperties.StepsFillWindows | App.tsx:122-150 | every step but the last delivers its rate's half-hour volume in 30 minutes and ends more than the tolerance short of the total; the last delivers at most its half-hour volume plus the tolerance, and either fills its window or ends exactly on the total |
| ScheduleProperties.AnnotateUnfold | App.tsx:141-162 | the first step's note is computed from the starting cursor, and the rest continue from where it leaves the cursor |
| ScheduleProperties.AnnotateKeepsSteps | App.tsx:133-142 | the vial notes are added to the steps without changing or reordering them |
| ScheduleProperties.AnnotateFrom | App.tsx:101-114 | steps that do not start at volume zero move the cursor forward and together announce the vials after the open one, up to the last one opened |
| ScheduleProperties.AnnotateFromZero | App.tsx:92-114 | a run whose first step starts at volume zero announces the vial list from its start, in order |
| ScheduleProperties.ScheduleKeepsSteps | App.tsx:68-170 | `Scheduler.Schedule` has one noted step per computed step, in order |
| ScheduleProperties.StepsStartAtZeroOnce | App.tsx:92-130 | only the first step starts at volume zero, so the cursor is restarted only there |
| ScheduleProperties.AnnouncedPrefix | App.tsx:90-116 | the announced vials form a prefix of the list; the first step announces the first vial; an empty list gives empty notes |
| ScheduleProperties.ScheduleAnnouncesVials | App.tsx:71-116 | every vial is announced at most once, in 100 → 50 → 25 ml order, the first step announces the first vial, and no vials give empty notes |
| ScheduleProperties.PrefixOfInventory | App.tsx:71-75 | any prefix of the vial list runs from larger to smaller vials of 100, 50 or 25 ml |
| ScheduleProperties.NoVialsNoNotes | App.tsx:92-101 | without vials no step announces anything |
| Trams.NatToString | App.tsx:93-107 | the decimal text of a vial volume is non-empty and made of digits |
| Trams.NatToStringRoundTrip | App.tsx:93-107 | reading the decimal text back gives the number |
| Trams.NoteTextBlank | App.tsx:93-115 | `Trams.NoteText`, the joined note: empty exactly when no vial is announced, and otherwise starting with the first vial's label (`Trams.VialLabel`) |
| Trams.NoteTextAppend | App.tsx:107-115 | the note for one vial is its label, and each further vial appends " + " and its label, so the note is the labels in order joined by " + " |
| Trams.Rows | App.tsx:133-142 | one row per step |
| Trams.RowDisplays | App.tsx:133-163 | `Trams.Row`: a row shows its step number and rate per kg as they are, its start and end minute rounded to the nearest minute, the other quantities on the tenths grid within 0.05 of the unrounded values, a non-negative remaining volume, and a blank note exactly when the step opens no vial |
| Trams.RowAt | App.tsx:133-163 | row k shows step k |
| Trams.EndTimeIsElapsed | App.tsx:144-164 | each step ends at the sum of the durations up to it |
| Trams.RowsNumbered | App.tsx:134-155 | rows are numbered 1, 2, 3, … |
| Trams.RowsContiguous | App.tsx:135-156 | each row's time range starts at the minute the previous one ends |
| Trams.RowsStartAtZero | App.tsx:135 | the first row starts at minute 0 |
| Trams.RowsTotalTime | App.tsx:172-176 | the total time is the sum of the step durations, rounded to a whole minute |
| Trams.RowsShowTimes | App.tsx:133-176 | rows of a linked run show their numbering, contiguous times and total time |
| Trams.TableTimes | App.tsx:133-176 | the table is numbered from 1, its times are contiguous from minute 0, and `Trams.TotalTime` is the rounded sum of the step durations |
| Trams.RowRemaining | App.tsx:140-161 | a step that does not pass the total shows the unclamped remaining volume, never negative, and 0 within the tolerance of the total |
| Trams.RowsRemaining | App.tsx:140-161 | the `Math.max(0, …)` clamp is never active: every row shows the rounded remaining volume, non-negative, and the last row 0 |
| Trams.TableRemaining | App.tsx:140-161 | in the table every remaining volume is the rounded difference to the total, never negative, and the last row shows 0 |
| Trams.RowsCumulative | App.tsx:139-160 | the cumulative column never decreases |
| Trams.RowsCumulativeLast | App.tsx:139-160 | the last row shows exactly the total when the total is on the tenths grid |
| Trams.RowsShowCumulative | App.tsx:139-160 | rows of a rising run show a non-decreasing cumulative column whose last entry is the total when the total is a whole number of tenths |
| Trams.TableCumulative | App.tsx:139-160 | the table's cumulative column never decreases, and ends on the total volume whenever that is a whole number of tenths, as the displayed total volume always is |
| ClinicalData.ChangeIndication | components/ClinicalData.tsx:15-23 | choosing an indication sets it, resets the dose per kg to its fixed dose or its minimum, keeps the total dose, and leaves a valid dose |
| ClinicalData.ChangeDose | components/ClinicalData.tsx:25-28 | a dose edit sets the dose per kg and leaves the indication and the total dose unchanged |
| ClinicalData.FixedDoseValidity | components/ClinicalData.tsx:30-31 | for a fixed-dose indication a dose is valid exactly when it equals the fixed dose |
| ClinicalData.RangedDoseValidity | components/ClinicalData.tsx:30-32 | for any other indication a dose is valid exactly when it lies within the range |
| ClinicalData.ValidIffWithinRange | components/ClinicalData.tsx:30-32 | `ClinicalData.IsDoseValid`: for every indication a dose is valid exactly when it lies within the range |
| ClinicalData.ChangeIndicationOverridesDose | components/ClinicalData.tsx:15-28 | choosing an indication discards an earlier dose edit, and choosing it again changes nothing |
| ClinicalData.ChangeDoseValidity | components/ClinicalData.tsx:25-32 | an edited dose is valid exactly when it is within the range, and editing back restores the prescription |
| App.Recompute | App.tsx:41-54 | the effect changes only the total dose and the vials |
| App.RecomputeCovers | App.tsx:41-54 | after the effect the state is synced, the total dose is within 0.005 of weight × dose per kg, and for a non-negative product the vials are non-negative and hold at least the dose |
| App.DriverEditsResync | App.tsx:41-54 | `App.Dispatch`: any event that changes the weight or the dose per kg leaves the total dose and the vials recomputed from them |
| App.ManualEditsAreLocal | App.tsx:314-363 | `App.Apply` and `App.Dispatch` for the other events: editing the total dose, one vial count or the scale changes only that field, and the effect does not run |
| App.SelectIndicationEffect | components/ClinicalData.tsx:15-23 | choosing an indication leaves a valid dose and recomputes the total dose exactly when the dose per kg changed |
| App.DispatchKeepsHealthy | App.tsx:41-54 | events with a non-negative weight and dose keep all vial counts non-negative |
| App.SensibleInputsNeverFail | App.tsx:41-170 | `App.View`: from a healthy state, events with non-negative weights and doses never reach a state whose table fails |
| App.InitialState | App.tsx:19-54 | the first screen has no dose, no vials and an empty table |
| App.EmptyTable | App.tsx:69 | without a weight the table is empty |
| App.NegativeDoseVials | App.tsx:42-47 | 70 kg at -1 g/kg gives -70 g and -7 vials of 10 g |
| App.NegativeDoseBreaksTable | App.tsx:41-314 | 70 kg, then -1 g/kg, then a manual 28 g reaches a state whose table fails |
| Scenario.WeightEntry | App.tsx:41-58 | entering 70 kg on the initial screen gives 28 g, 280 ml and two 10 g vials, one 5 g vial and two 2.5 g vials |
| Scenario.ExampleSteps | App.tsx:118-167 | the example's five steps: 0.3, 0.6, 1.2 and 2.4 ml/kg/h for 30 minutes each, then 122.5 ml at 4.8 ml/kg/h in 21.875 minutes |
| Scenario.ExampleVials | App.tsx:71-75 | the example's vial list is 100, 100, 50, 25, 25 ml |
| Scenario.ExampleNotes | App.tsx:90-116 | the example's notes: the first 100 ml vial, nothing, nothing, the second 100 ml vial, then the 50 ml and both 25 ml vials |
| Scenario.ExampleLabels | App.tsx:93-107 | the labels read "Vial 50ml" and "Vial 25ml" |
| Scenario.ExampleLastRow | App.tsx:133-142 | the example's last row shows minutes 120-142, 336 ml/h, 122.5 ml, 280 ml delivered, 0 remaining |
| Scenario.ExampleTable | App.tsx:133-176 | the example's table has five rows and a total time of 142 minutes |

## Left out

- React wiring. The effect and the memos are pure functions, and events are
  applied one at a time.
- The PDF export. It only lays out the schedule through a foreign library.
- The display components: patient form, table rendering, nursing reminders.
- Parsing. Events carry already-parsed numbers.
  - A typed weight, dose or total is whatever `parseFloat(…) || 0` yields.
  - A typed vial count is a `nat`. A parsed count can still be negative in
    the calculator, but negative counts are covered through the dose path.
- Exact IEEE-754 behaviour of `toFixed`, `Math.round` and `%`. Quantities
  are exact reals with the rounding modes stated above.
- `formatTime` (hours-and-minutes text).
- The `timeRange` string and its `split`/`parseInt` round trip. Rows carry
  the two integer minutes instead.
- Scheduler.Annotate: its contract states only the lengths and the cursor
  bound. The notes themselves are stated by ScheduleProperties.AnnotateFrom,
  ScheduleProperties.AnnotateFromZero and ScheduleProperties.AnnouncedPrefix.
- Rounding.RoundTenths: the tenths-grid property is a separate lemma
  (Rounding.RoundTenthsOnGrid), not part of the function's contract.
- App.Recompute: its contract states only what the effect leaves unchanged.
  What it computes is App.RecomputeCovers.
- Trams.Rows: its contract states only the length. Row content is
  Trams.RowAt.
- Dosing.AutoVials: its contract covers non-negative doses. For a negative
  dose the function computes the calculator's floor-and-truncate split, but the
  contract pins only the example in App.NegativeDoseVials.

=== FILE: app.dfy ===
/** The calculator's screen state and how input events update it. Changing
    the weight or the dose per kg re-runs the auto-allocation effect, which
    recomputes the total dose and the vial counts; a manual edit of the
    total dose, of a vial count or of the scale changes only that field.
    The total volume, the administration table and the total time are
    derived from the state. */
module App {
  import opened Rounding
  import opened Constants
  import opened Dosing
  import opened Scheduler
  import opened Trams
  import opened ClinicalData

  datatype VialSize = TenGram | FiveGram | TwoHalfGram

  /** The inputs the schedule depends on: patient weight in kg, the
      prescription, the vial counts and the chosen rate scale. */
  datatype AppState = AppState(weight: real, prescription: Prescription,
                               counts: VialCounts, flexible: bool)

  /** An input event, its value already parsed. */
  datatype Event =
    | SetWeight(weight: real)
    | SelectIndication(indication: Indication)
    | EditDosePerKg(dose: real)
    | EditTotalDose(grams: real)
    | EditVialCount(size: VialSize, count: nat)
    | SelectScale(flexible: bool)

  /** The auto-allocation effect: the total dose becomes weight times dose
      per kg to two decimals, and the vial counts its greedy split. */
  function Recompute(s: AppState): (t: AppState)
    ensures t.weight == s.weight && t.flexible == s.flexible
    ensures t.prescription.indication == s.prescription.indication
    ensures t.prescription.dosePerKg == s.prescription.dosePerKg
  {
    var total := TotalDose(s.weight, s.prescription.dosePerKg);
    var counts := AutoVials(total);
    AppState(s.weight, s.prescription.(totalDoseAdjusted := total), counts, s.flexible)
  }

  /** The effect leaves the state synced, with a total dose within half a
      hundredth of weight times dose per kg and, for a non-negative product,
      non-negative vial counts that hold at least the total dose. */
  lemma RecomputeCovers(s: AppState)
    ensures Synced(Recompute(s))
    ensures var product := s.weight * s.prescription.dosePerKg;
            var t := Recompute(s);
            && product - 0.005 <= t.prescription.totalDoseAdjusted <= product + 0.005
            && (0.0 <= product ==> t.counts.NonNegative() && t.prescription.totalDoseAdjusted <= t.counts.Grams())
  {
    var product := s.weight * s.prescription.dosePerKg;
    var total := TotalDose(s.weight, s.prescription.dosePerKg);
    assert product - 0.005 <= total <= product + 0.005;
    if 0.0 <= product {
      assert 0.0 <= total;
      var c := AutoVials(total);
      assert c.NonNegative() && total <= c.Grams();
    }
  }

  function SetCount(c: VialCounts, size: VialSize, n: nat): VialCounts
  {
    match size
    case TenGram => c.(tenGram := n)
    case FiveGram => c.(fiveGram := n)
    case TwoHalfGram => c.(twoHalfGram := n)
  }

  function Count(c: VialCounts, size: VialSize): int
  {
    match size
    case TenGram => c.tenGram
    case FiveGram => c.fiveGram
    case TwoHalfGram => c.twoHalfGram
  }

  /** The state setter an event calls, before any effect. */
  function Apply(s: AppState, e: Event): AppState
  {
    match e
    case SetWeight(w) => s.(weight := w)
    case SelectIndication(ind) => s.(prescription := ChangeIndication(s.prescription, ind))
    case EditDosePerKg(d) => s.(prescription := ChangeDose(s.prescription, d))
    case EditTotalDose(g) => s.(prescription := s.prescription.(totalDoseAdjusted := g))
    case EditVialCount(size, n) => s.(counts := SetCount(s.counts, size, n))
    case SelectScale(f) => s.(flexible := f)
  }

  /** One event: the setter, then the effect if the weight or the dose per
      kg it depends on changed. */
  function Dispatch(s: AppState, e: Event): AppState
  {
    var t := Apply(s, e);
    if t.weight != s.weight || t.prescription.dosePerKg != s.prescription.dosePerKg
    then Recompute(t)
    else t
  }

  /** A sequence of events, in order. */
  function Replay(s: AppState, events: seq<Event>): AppState
    decreases |events|
  {
    if |events| == 0 then s else Replay(Dispatch(s, events[0]), events[1..])
  }

  /** The state on first render, after the effect's initial run: no weight,
      IDP at 0.4 g/kg, the standard scale. */
  const Init: AppState :=
    Recompute(AppState(0.0, Prescription(IDP, 0.4, 0.0), VialCounts(0, 0, 0), false))

  /** The total volume in ml. */
  function Volume(s: AppState): real
  {
    TotalVolume(s.prescription.totalDoseAdjusted)
  }

  /** The administration table, or `None` where building the vial list
      fails: a schedule is computed (positive weight and volume) from a
      negative vial count. */
  function View(s: AppState): Option<seq<AdminTram>>
  {
    if s.weight > 0.0 && Volume(s) > 0.0 && !s.counts.NonNegative() then None
    else Some(Table(s.weight, Volume(s), s.prescription.indication, s.counts, s.flexible))
  }

  /** The total dose and the vials are those the effect computes from the
      weight and the dose per kg. */
  predicate Synced(s: AppState)
  {
    && s.prescription.totalDoseAdjusted == TotalDose(s.weight, s.prescription.dosePerKg)
    && s.counts == AutoVials(s.prescription.totalDoseAdjusted)
  }

  /** Every event that changes the weight or the dose per kg leaves the
      total dose and the vials recomputed from them; the weight, dose and
      indication events keep a synced state synced even when they change
      nothing. */
  lemma DriverEditsResync(s: AppState, e: Event)
    ensures var t := Dispatch(s, e);
            t.weight != s.weight || t.prescription.dosePerKg != s.prescription.dosePerKg ==> Synced(t)
    ensures Synced(s) && (e.SetWeight? || e.EditDosePerKg? || e.SelectIndication? || e.SelectScale?) ==>
              Synced(Dispatch(s, e))
  {
  }

  /** A manual edit of the total dose, of one vial count or of the scale
      sets that field and leaves everything else as it was: the effect does
      not run. */
  lemma ManualEditsAreLocal(s: AppState, e: Event)
    requires e.EditTotalDose? || e.EditVialCount? || e.SelectScale?
    ensures var t := Dispatch(s, e);
            && t.weight == s.weight
            && t.prescription.indication == s.prescription.indication
            && t.prescription.dosePerKg == s.prescription.dosePerKg
            && (e.EditTotalDose? ==> t.prescription.totalDoseAdjusted == e.grams)
            && (!e.EditTotalDose? ==> t.prescription.totalDoseAdjusted == s.prescription.totalDoseAdjusted)
            && (forall size :: Count(t.counts, size) ==
                  if e.EditVialCount? && size == e.size then e.count else Count(s.counts, size))
            && (e.SelectScale? ==> t.flexible == e.flexible)
            && (!e.SelectScale? ==> t.flexible == s.flexible)
  {
  }

  /** Selecting an indication leaves a dose valid for it; the total dose is
      recomputed exactly when the default dose differs from the old one. */
  lemma SelectIndicationEffect(s: AppState, ind: Indication)
    ensures var t := Dispatch(s, SelectIndication(ind));
            && t.prescription.indication == ind
            && IsDoseValid(t.prescription)
            && (s.prescription.dosePerKg != RangeOf(ind).min ==> Synced(t))
            && (s.prescription.dosePerKg == RangeOf(ind).min ==>
                  t.prescription.totalDoseAdjusted == s.prescription.totalDoseAdjusted && t.counts == s.counts)
  {
  }

  /** Inputs a user can type without the table failing: a non-negative
      weight and dose per kg, anything else unrestricted. */
  predicate Sensible(e: Event)
  {
    match e
    case SetWeight(w) => 0.0 <= w
    case EditDosePerKg(d) => 0.0 <= d
    case _ => true
  }

  /** The state stays one with non-negative weight, dose and vial counts. */
  predicate Healthy(s: AppState)
  {
    && 0.0 <= s.weight
    && 0.0 <= s.prescription.dosePerKg
    && s.counts.NonNegative()
  }

  lemma NonNegativeProduct(a: real, b: real)
    requires 0.0 <= a && 0.0 <= b
    ensures 0.0 <= a * b
  {
  }

  /** A sensible event keeps a healthy state healthy. */
  lemma DispatchKeepsHealthy(s: AppState, e: Event)
    requires Healthy(s) && Sensible(e)
    ensures Healthy(Dispatch(s, e))
  {
    var t := Apply(s, e);
    RangesWellFormed(t.prescription.indication);
    NonNegativeProduct(t.weight, t.prescription.dosePerKg);
    RecomputeCovers(t);
  }

  /** From the initial state, sensible events never reach a state whose
      table fails, and the table of a healthy state is the schedule's. */
  lemma {:induction false} SensibleInputsNeverFail(s: AppState, events: seq<Event>)
    requires Healthy(s)
    requires forall k :: 0 <= k < |events| ==> Sensible(events[k])
    ensures Healthy(Replay(s, events))
    ensures View(Replay(s, events)).Some?
    decreases |events|
  {
    if |events| > 0 {
      DispatchKeepsHealthy(s, events[0]);
      SensibleInputsNeverFail(Dispatch(s, events[0]), events[1..]);
    }
  }

  /** The initial state has no dose, no vials and an empty table. */
  lemma InitialState()
    ensures Healthy(Init) && Synced(Init)
    ensures Init.prescription.totalDoseAdjusted == 0.0
    ensures Init.counts == VialCounts(0, 0, 0)
    ensures View(Init) == Some([])
  {
    assert TotalDose(0.0, 0.4) == 0.0;
    assert AutoVials(0.0) == VialCounts(0, 0, 0);
    EmptyTable(Init);
  }

  /** Without a weight there is nothing to schedule. */
  lemma EmptyTable(s: AppState)
    requires s.weight <= 0.0
    ensures View(s) == Some([])
  {
    ScheduleProperties.EmptyWhenNothingToInfuse(s.weight, Volume(s), s.prescription.indication,
                                                 s.counts, s.flexible);
  }

  lemma FloorIs(x: real, n: int)
    requires n as real <= x < n as real + 1.0
    ensures x.Floor == n
  {
  }

  /** 70 kg at -1 g/kg is -70 g, and its greedy split starts with -7 vials
      of 10 g. */
  lemma NegativeDoseVials()
    ensures TotalDose(70.0, -1.0) == -70.0
    ensures AutoVials(-70.0).tenGram == -7
  {
    FloorIs(7000.5, 7000);
    FloorIs(-7.0, -7);
  }

  /** 28 g make 280 ml. */
  lemma TwentyEightGrams()
    ensures TotalVolume(28.0) == 280.0
  {
    FloorIs(2800.5, 2800);
  }

  /** A negative dose per kg yields negative vial counts, and entering a
      total dose by hand then makes the table fail: 70 kg at -1 g/kg, then
      a manual 28 g. */
  lemma NegativeDoseBreaksTable()
    ensures var s := Replay(Init, [SetWeight(70.0), EditDosePerKg(-1.0), EditTotalDose(28.0)]);
            View(s).None?
  {
    var s1 := Dispatch(Init, SetWeight(70.0));
    var s2 := Dispatch(s1, EditDosePerKg(-1.0));
    NegativeDoseVials();
    assert s2.counts.tenGram == -7;
    var s3 := Dispatch(s2, EditTotalDose(28.0));
    assert s3.counts == s2.counts;
    TwentyEightGrams();
    assert [SetWeight(70.0), EditDosePerKg(-1.0), EditTotalDose(28.0)][1..]
        == [EditDosePerKg(-1.0), EditTotalDose(28.0)];
    assert Replay(Init, [SetWeight(70.0), EditDosePerKg(-1.0), EditTotalDose(28.0)]) == s3;
  }
}

=== FILE: clinical.dfy ===
/** The prescription form: the chosen indication, the dose per kg and the
    total dose. The dose check is advisory (an out-of-range dose is flagged,
    not refused), and choosing an indication resets the dose per kg to that
    indication's default. */
module ClinicalData {
  import opened Constants

  /** `dosePerKg` in g/kg, `totalDoseAdjusted` in g. */
  datatype Prescription = Prescription(indication: Indication, dosePerKg: real,
                                       totalDoseAdjusted: real)

  /** JavaScript truthiness of an optional number: absent and 0 are falsy. */
  predicate Truthy(o: Option<real>)
  {
    o.Some? && o.value != 0.0
  }

  /** `fixed || min`: the fixed dose when it is truthy, the minimum
      otherwise. */
  function DefaultDose(range: DoseRange): real
  {
    if Truthy(range.fixed) then range.fixed.value else range.min
  }

  /** Whether the prescribed dose per kg is acceptable for its indication:
      equal to the fixed dose where there is one, within the range
      otherwise. */
  predicate IsDoseValid(p: Prescription)
  {
    var range := RangeOf(p.indication);
    if Truthy(range.fixed) then p.dosePerKg == range.fixed.value
    else range.min <= p.dosePerKg <= range.max
  }

  /** Selecting an indication: the indication changes, the dose per kg
      becomes the new indication's default and the total dose is kept. */
  function ChangeIndication(p: Prescription, ind: Indication): (q: Prescription)
    ensures q.indication == ind
    ensures q.totalDoseAdjusted == p.totalDoseAdjusted
    ensures q.dosePerKg == RangeOf(ind).min
    ensures RangeOf(ind).fixed.Some? ==> q.dosePerKg == RangeOf(ind).fixed.value
    ensures IsDoseValid(q)
  {
    RangesWellFormed(ind);
    p.(indication := ind, dosePerKg := DefaultDose(RangeOf(ind)))
  }

  /** Editing the dose per kg (already parsed). */
  function ChangeDose(p: Prescription, dose: real): (q: Prescription)
    ensures q.dosePerKg == dose
    ensures q.indication == p.indication && q.totalDoseAdjusted == p.totalDoseAdjusted
  {
    p.(dosePerKg := dose)
  }

  /** For an indication with a fixed dose, a dose is valid exactly when it
      is that dose. */
  lemma FixedDoseValidity(p: Prescription)
    requires RangeOf(p.indication).fixed.Some?
    ensures IsDoseValid(p) <==> p.dosePerKg == RangeOf(p.indication).fixed.value
  {
    RangesWellFormed(p.indication);
  }

  /** For an indication without a fixed dose, a dose is valid exactly when
      it lies within the range. */
  lemma RangedDoseValidity(p: Prescription)
    requires RangeOf(p.indication).fixed.None?
    ensures IsDoseValid(p) <==> RangeOf(p.indication).min <= p.dosePerKg <= RangeOf(p.indication).max
  {
  }

  /** Since a fixed dose is both the minimum and the maximum of its range,
      the check amounts, for every indication, to lying within the range. */
  lemma ValidIffWithinRange(p: Prescription)
    ensures IsDoseValid(p) <==> RangeOf(p.indication).min <= p.dosePerKg <= RangeOf(p.indication).max
  {
    RangesWellFormed(p.indication);
  }

  /** Selecting an indication forgets any earlier dose edit and is
      idempotent. */
  lemma ChangeIndicationOverridesDose(p: Prescription, dose: real, ind: Indication)
    ensures ChangeIndication(ChangeDose(p, dose), ind) == ChangeIndication(p, ind)
    ensures ChangeIndication(ChangeIndication(p, ind), ind) == ChangeIndication(p, ind)
  {
  }

  /** A dose edit followed by the check: the edited dose is valid exactly
      when it is within the range of the unchanged indication, and editing
      back to the old dose restores the prescription. */
  lemma ChangeDoseValidity(p: Prescription, dose: real)
    ensures IsDoseValid(ChangeDose(p, dose)) <==>
              RangeOf(p.indication).min <= dose <= RangeOf(p.indication).max
    ensures ChangeDose(ChangeDose(p, dose), p.dosePerKg) == p
  {
    ValidIffWithinRange(ChangeDose(p, dose));
  }
}

=== FILE: constants.dfy ===
/** The calculator's constant data: the clinical indications with their
    dose-per-kg ranges, the two rate-escalation scales, the extra rate for
    primary immunodeficiency, and the vial presentations. */
module Constants {

  datatype Option<T> = None | Some(value: T)

  /** The seven clinical indications offered by the prescription form. */
  datatype Indication =
    | IDP            // primary immunodeficiency (replacement therapy)
    | IDS            // secondary immunodeficiency
    | PTI            // immune thrombocytopenic purpura
    | GuillainBarre
    | Kawasaki
    | PDIC           // chronic inflammatory demyelinating polyneuropathy
    | NMM            // multifocal motor neuropathy

  /** The indications in declaration order, as the selector lists them. */
  const Indications: seq<Indication> :=
    [IDP, IDS, PTI, GuillainBarre, Kawasaki, PDIC, NMM]

  /** Allowed dose per kg in g/kg; `fixed` is present for single-dose
      indications. */
  datatype DoseRange = DoseRange(min: real, max: real, fixed: Option<real>)

  function RangeOf(ind: Indication): DoseRange
  {
    match ind
    case IDP => DoseRange(0.2, 0.8, None)
    case IDS => DoseRange(0.2, 0.4, None)
    case PTI => DoseRange(0.4, 1.0, None)
    case GuillainBarre => DoseRange(0.4, 0.4, Some(0.4))
    case Kawasaki => DoseRange(2.0, 2.0, Some(2.0))
    case PDIC => DoseRange(1.0, 2.0, None)
    case NMM => DoseRange(1.0, 2.0, None)
  }

  /** Rates in ml/kg/h. */
  const StandardRates: seq<real> := [0.3, 0.6, 1.2, 2.4, 4.8]
  const FlexibleRates: seq<real> := [0.3, 0.6, 0.9, 1.2, 1.8, 2.4, 3.6, 4.8]
  const IdpExtraRate: real := 7.2

  datatype VialPresentation = VialPresentation(grams: real, ml: real, caption: string)

  const VialPresentations: seq<VialPresentation> := [
    VialPresentation(10.0, 100.0, "10 g / 100 ml"),
    VialPresentation(5.0, 50.0, "5 g / 50 ml"),
    VialPresentation(2.5, 25.0, "2.5 g / 25 ml")
  ]

  predicate StrictlyIncreasing(s: seq<real>)
  {
    forall i, j :: 0 <= i < j < |s| ==> s[i] < s[j]
  }

  /** Appending a value above the last element keeps a list strictly
      increasing. */
  lemma {:induction false} AppendKeepsIncreasing(s: seq<real>, x: real)
    requires StrictlyIncreasing(s)
    requires |s| == 0 || s[|s| - 1] < x
    ensures StrictlyIncreasing(s + [x])
  {
    var t := s + [x];
    forall i, j | 0 <= i < j < |t|
      ensures t[i] < t[j]
    {
      if j == |s| {
        assert s[i] <= s[|s| - 1];
      }
    }
  }

  /** The standard scale doubles at every step, from 0.3 up to 4.8. */
  lemma StandardScaleDoubles()
    ensures |StandardRates| == 5
    ensures StandardRates[0] == 0.3 && StandardRates[4] == 4.8
    ensures forall i :: 0 < i < |StandardRates| ==> StandardRates[i] == 2.0 * StandardRates[i - 1]
    ensures StrictlyIncreasing(StandardRates)
  {
  }

  /** The flexible scale rises strictly from 0.3 to 4.8 and passes through
      every standard rate. */
  lemma FlexibleScaleRefinesStandard()
    ensures FlexibleRates[0] == 0.3 && FlexibleRates[|FlexibleRates| - 1] == 4.8
    ensures StrictlyIncreasing(FlexibleRates)
    ensures forall r :: r in StandardRates ==> r in FlexibleRates
  {
  }

  /** 7.2 lies above the top of both scales, so appending it keeps either
      strictly increasing. */
  lemma IdpRateTopsBothScales()
    ensures StandardRates[|StandardRates| - 1] < IdpExtraRate
    ensures FlexibleRates[|FlexibleRates| - 1] < IdpExtraRate
    ensures StrictlyIncreasing(StandardRates + [IdpExtraRate])
    ensures StrictlyIncreasing(FlexibleRates + [IdpExtraRate])
  {
    StandardScaleDoubles();
    FlexibleScaleRefinesStandard();
    AppendKeepsIncreasing(StandardRates, IdpExtraRate);
    AppendKeepsIncreasing(FlexibleRates, IdpExtraRate);
  }

  /** Every range is a non-empty interval of positive doses, and a fixed
      dose pins both ends. */
  lemma RangesWellFormed(ind: Indication)
    ensures 0.0 < RangeOf(ind).min <= RangeOf(ind).max
    ensures RangeOf(ind).fixed.Some? ==>
              RangeOf(ind).min == RangeOf(ind).fixed.value == RangeOf(ind).max
    ensures RangeOf(ind).fixed.Some? ==> RangeOf(ind).fixed.value != 0.0
  {
  }

  /** The selector lists all seven indications, each once. */
  lemma IndicationsComplete(ind: Indication)
    ensures |Indications| == 7
    ensures ind in Indications
    ensures forall i, j :: 0 <= i < j < |Indications| ==> Indications[i] != Indications[j]
  {
  }

  /** Privigen is a 10 % solution: every presentation holds 0.1 g per ml. */
  lemma PresentationsAreTenPercent()
    ensures |VialPresentations| == 3
    ensures forall k :: 0 <= k < |VialPresentations| ==>
              VialPresentations[k].ml == 10.0 * VialPresentations[k].grams
    ensures VialPresentations[0].ml == 100.0 && VialPresentations[1].ml == 50.0
            && VialPresentations[2].ml == 25.0
  {
  }
}

=== FILE: dosing.dfy ===
/** Dose arithmetic: the total dose derived from weight and dose per kg, the
    greedy vial allocation, the total volume, and the flattened vial list in
    opening order. */
module Dosing {
  import opened Rounding

  /** Vial counts per presentation: 10 g / 100 ml, 5 g / 50 ml and
      2.5 g / 25 ml. The automatic allocation of a negative dose yields
      negative counts, so the fields are plain integers. */
  datatype VialCounts = VialCounts(tenGram: int, fiveGram: int, twoHalfGram: int)
  {
    predicate NonNegative()
    {
      tenGram >= 0 && fiveGram >= 0 && twoHalfGram >= 0
    }

    /** Grams of drug the counted vials hold. */
    function Grams(): real
    {
      10.0 * tenGram as real + 5.0 * fiveGram as real + 2.5 * twoHalfGram as real
    }
  }

  /** The total dose in grams: weight times dose per kg, to two decimals. */
  function TotalDose(weight: real, dosePerKg: real): (d: real)
    ensures OnGrid(d, 100)
    ensures 0.0 <= weight * dosePerKg ==>
              weight * dosePerKg - 0.005 < d <= weight * dosePerKg + 0.005
    ensures weight * dosePerKg < 0.0 ==>
              weight * dosePerKg - 0.005 <= d < weight * dosePerKg + 0.005
    ensures 0.0 <= weight * dosePerKg ==> 0.0 <= d
    ensures weight * dosePerKg <= 0.0 ==> d <= 0.0
  {
    ToFixedHundredths(weight * dosePerKg);
    ToFixed(weight * dosePerKg, 100)
  }

  /** Greedy largest-first split of a dose into vials: as many 10 g vials as
      fit, then 5 g vials on what is left, then enough 2.5 g vials to cover
      the rest. */
  function AutoVials(dose: real): (c: VialCounts)
    ensures 0.0 <= dose ==> c.NonNegative()
    ensures 0.0 <= dose ==> c.tenGram == (dose / 10.0).Floor
    ensures 0.0 <= dose ==> c.fiveGram <= 1 && c.twoHalfGram <= 2
    ensures 0.0 <= dose ==> (c.fiveGram == 1 <==> 5.0 <= dose - 10.0 * c.tenGram as real)
    ensures 0.0 <= dose ==> dose <= c.Grams() < dose + 2.5
  {
    var tens := (dose / 10.0).Floor;
    var afterTens := JsRem(dose, 10.0);
    var fives := (afterTens / 5.0).Floor;
    var afterFives := JsRem(afterTens, 5.0);
    var twoHalves := Ceil(afterFives / 2.5);
    assert 0.0 <= dose ==> afterTens == dose - 10.0 * tens as real;
    VialCounts(tens, fives, twoHalves)
  }

  /** The total volume in ml: Privigen holds 0.1 g per ml, shown to one
      decimal. */
  function TotalVolume(totalDose: real): (v: real)
    ensures OnGrid(v, 10)
    ensures 0.0 <= totalDose ==>
              10.0 * totalDose - 0.05 < v <= 10.0 * totalDose + 0.05
    ensures totalDose < 0.0 ==>
              10.0 * totalDose - 0.05 <= v < 10.0 * totalDose + 0.05
    ensures 0.0 <= totalDose ==> 0.0 <= v
    ensures totalDose <= 0.0 ==> v <= 0.0
  {
    ToFixedTenths(totalDose * 10.0);
    ToFixed(totalDose * 10.0, 10)
  }

  function Repeat(ml: int, n: nat): (s: seq<int>)
    ensures |s| == n
    ensures forall k :: 0 <= k < n ==> s[k] == ml
  {
    if n == 0 then [] else Repeat(ml, n - 1) + [ml]
  }

  /** The vial volumes in ml in the order they are opened: every 100 ml vial,
      then every 50 ml vial, then every 25 ml vial. */
  function Flatten(c: VialCounts): seq<int>
    requires c.NonNegative()
  {
    Repeat(100, c.tenGram) + Repeat(50, c.fiveGram) + Repeat(25, c.twoHalfGram)
  }

  /** Sum of a list of vial volumes. */
  function Sum(s: seq<int>): int
  {
    if |s| == 0 then 0 else Sum(s[..|s| - 1]) + s[|s| - 1]
  }

  lemma {:induction false} SumAppend(a: seq<int>, b: seq<int>)
    ensures Sum(a + b) == Sum(a) + Sum(b)
    decreases |b|
  {
    if |b| > 0 {
      var b' := b[..|b| - 1];
      assert (a + b)[..|a + b| - 1] == a + b';
      SumAppend(a, b');
    } else {
      assert a + b == a;
    }
  }

  lemma {:induction false} SumRepeat(ml: int, n: nat)
    ensures Sum(Repeat(ml, n)) == n * ml
  {
    if n > 0 {
      assert Repeat(ml, n)[..n - 1] == Repeat(ml, n - 1);
      SumRepeat(ml, n - 1);
    }
  }

  /** The flattened list holds exactly the counted vials, largest first,
      so it never increases. */
  lemma FlattenOrder(c: VialCounts)
    requires c.NonNegative()
    ensures |Flatten(c)| == c.tenGram + c.fiveGram + c.twoHalfGram
    ensures forall k :: 0 <= k < c.tenGram ==> Flatten(c)[k] == 100
    ensures forall k :: c.tenGram <= k < c.tenGram + c.fiveGram ==> Flatten(c)[k] == 50
    ensures forall k :: c.tenGram + c.fiveGram <= k < |Flatten(c)| ==> Flatten(c)[k] == 25
    ensures forall i, j :: 0 <= i < j < |Flatten(c)| ==> Flatten(c)[i] >= Flatten(c)[j]
  {
  }

  /** The flattened list holds ten ml per gram of the counted vials. */
  lemma {:induction false} InventoryVolume(c: VialCounts)
    requires c.NonNegative()
    ensures Sum(Flatten(c)) as real == 10.0 * c.Grams()
  {
    SumAppend(Repeat(100, c.tenGram) + Repeat(50, c.fiveGram), Repeat(25, c.twoHalfGram));
    SumAppend(Repeat(100, c.tenGram), Repeat(50, c.fiveGram));
    SumRepeat(100, c.tenGram);
    SumRepeat(50, c.fiveGram);
    SumRepeat(25, c.twoHalfGram);
  }

  /** Rounding to tenths never lifts a value above a tenths-grid point
      that lies above it. */
  lemma {:induction false} ToFixedTenthsBelowGrid(x: real, y: real)
    requires 0.0 <= x <= y
    requires OnGrid(y, 10)
    ensures ToFixed(x, 10) <= y
  {
    var n := (x * 10.0 + 0.5).Floor;
    var m := (y * 10.0).Floor;
    assert m as real == y * 10.0;
    assert n <= m;
    assert ToFixed(x, 10) == n as real / 10.0;
  }

  /** For a non-negative dose the automatic allocation holds at least the
      total volume to be infused, and less than 25 ml beyond the dose's
      exact volume. */
  lemma {:induction false} AutoVialsCoverVolume(dose: real)
    requires 0.0 <= dose
    ensures AutoVials(dose).NonNegative()
    ensures TotalVolume(dose) <= Sum(Flatten(AutoVials(dose))) as real < 10.0 * dose + 25.0
  {
    var c := AutoVials(dose);
    InventoryVolume(c);
    var s := Sum(Flatten(c));
    assert OnGrid(s as real, 10) by {
      assert (s as real * 10.0).Floor == s * 10;
    }
    ToFixedTenthsBelowGrid(dose * 10.0, s as real);
  }

  /** A dose that falls exactly half way between two hundredths goes up:
      70.5 kg at 0.25 g/kg is 17.625 g, shown as 17.63 g. */
  lemma HalfHundredthRoundsUp()
    ensures TotalDose(70.5, 0.25) == 17.63
  {
  }
}

=== FILE: rounding.dfy ===
/** Numeric helpers shared by the calculator: the JavaScript rounding and
    remainder operators it relies on, written out over exact reals, and the
    0.01 ml tolerance used by its comparisons. */
module Rounding {

  /** The fixed 0.01 ml tolerance used both by the last-step test and by the
      vial cursor. */
  const Epsilon: real := 0.01

  function Min(a: real, b: real): (m: real)
    ensures m <= a && m <= b
    ensures m == a || m == b
  {
    if a <= b then a else b
  }

  function Max(a: real, b: real): (m: real)
    ensures a <= m && b <= m
    ensures m == a || m == b
  {
    if a <= b then b else a
  }

  /** `Math.round`: the nearest integer, halves going up (toward +infinity). */
  function JsRound(x: real): (n: int)
    ensures n as real - 0.5 <= x < n as real + 0.5
  {
    (x + 0.5).Floor
  }

  /** `Math.ceil`. */
  function Ceil(x: real): (n: int)
    ensures x <= n as real < x + 1.0
  {
    -((-x).Floor)
  }

  /** Truncation toward zero, the quotient JavaScript's `%` is built on. */
  function Trunc(x: real): (n: int)
    ensures 0.0 <= x ==> 0 <= n && n as real <= x < n as real + 1.0
    ensures x < 0.0 ==> n <= 0 && n as real - 1.0 < x <= n as real
  {
    if x >= 0.0 then x.Floor else -((-x).Floor)
  }

  /** JavaScript `x % m`: the remainder takes the sign of the dividend. The
      callers use the literal moduli 10 and 5, where its bounds are proved. */
  function JsRem(x: real, m: real): real
    requires m != 0.0
  {
    x - Trunc(x / m) as real * m
  }

  /** For a positive modulus the remainder keeps the sign of the dividend,
      is smaller than the modulus in size, and differs from the dividend by
      a whole multiple of the modulus. */
  lemma {:induction false} JsRemTruncates(x: real, m: real)
    requires 0.0 < m
    ensures 0.0 <= x ==> 0.0 <= JsRem(x, m) < m
    ensures x < 0.0 ==> -m < JsRem(x, m) <= 0.0
    ensures OnGrid((x - JsRem(x, m)) / m, 1)
  {
    var n := Trunc(x / m);
    var q := n as real;
    var r := JsRem(x, m);
    var d := x / m - q;
    RemIsScaledFraction(x, m, q);
    assert r == d * m;
    assert OnGrid((x - r) / m, 1) by {
      assert r == x - q * m;
      assert (x - r) / m == q;
      assert (q * 1 as real).Floor == n;
    }
    FractionOfModulus(r, d, m);
  }

  /** What is left of x after q whole moduli is the fraction x/m - q of one
      modulus. */
  lemma RemIsScaledFraction(x: real, m: real, q: real)
    requires 0.0 < m
    ensures x - q * m == (x / m - q) * m
    ensures (x - (x - q * m)) / m == q
    ensures 0.0 <= x ==> 0.0 <= x / m
    ensures x < 0.0 ==> x / m < 0.0
  {
  }

  /** A fraction strictly between -1 and 1 of a positive modulus is smaller
      than the modulus in size and keeps the fraction's sign. */
  lemma FractionOfModulus(r: real, d: real, m: real)
    requires 0.0 < m
    requires -1.0 < d < 1.0
    requires r == d * m
    ensures 0.0 <= d ==> 0.0 <= r < m
    ensures d <= 0.0 ==> -m < r <= 0.0
  {
    if d == 0.0 {
      assert r == 0.0;
    } else if 0.0 < d {
      MulBelow(0.0, d, m);
      MulBelow(d, 1.0, m);
    } else {
      MulBelow(-1.0, d, m);
      MulBelow(d, 0.0, m);
    }
  }

  /** Unlike a Euclidean remainder, `-7 % 5` is -2, not 3. */
  lemma JsRemOfNegative()
    ensures JsRem(-7.0, 5.0) == -2.0
  {
    assert Trunc(-7.0 / 5.0) == -1;
  }

  lemma MulBelow(a: real, b: real, m: real)
    requires 0.0 < m
    requires a <= b
    ensures a * m <= b * m
    ensures a < b ==> a * m < b * m
  {
  }

  /** True when `x` is a whole number of units of `1/scale`. */
  predicate OnGrid(x: real, scale: nat)
  {
    (x * scale as real).Floor as real == x * scale as real
  }

  /** `Number(x.toFixed(digits))` with `scale == 10^digits`: rounding to the
      grid `1/scale`, halves away from zero. The callers use the scales 10
      and 100, where its bounds are proved. */
  function ToFixed(x: real, scale: nat): real
    requires scale > 0
  {
    var s := scale as real;
    if x >= 0.0 then (x * s + 0.5).Floor as real / s
    else -((-x * s + 0.5).Floor as real) / s
  }

  /** `toFixed(1)` lands on the tenths grid, within half a tenth, keeping
      the sign; an exact half goes away from zero (0.25 gives 0.3, -0.25
      gives -0.3). */
  lemma {:induction false} ToFixedTenths(x: real)
    ensures OnGrid(ToFixed(x, 10), 10)
    ensures 0.0 <= x ==> x - 0.05 < ToFixed(x, 10) <= x + 0.05
    ensures x < 0.0 ==> x - 0.05 <= ToFixed(x, 10) < x + 0.05
    ensures 0.0 <= x ==> 0.0 <= ToFixed(x, 10)
    ensures x <= 0.0 ==> ToFixed(x, 10) <= 0.0
  {
    var r := ToFixed(x, 10);
    if x >= 0.0 {
      var n := (x * 10.0 + 0.5).Floor;
      assert r == n as real / 10.0;
      assert n as real <= x * 10.0 + 0.5 < n as real + 1.0;
      assert r * 10.0 == n as real;
    } else {
      var n := (-x * 10.0 + 0.5).Floor;
      assert r == -(n as real) / 10.0;
      assert n as real <= -x * 10.0 + 0.5 < n as real + 1.0;
      assert r * 10.0 == -(n as real);
      assert (-(n as real)).Floor == -n;
    }
  }

  /** `toFixed(2)` lands on the hundredths grid, within half a hundredth,
      keeping the sign; an exact half goes away from zero (17.625 gives
      17.63). */
  lemma {:induction false} ToFixedHundredths(x: real)
    ensures OnGrid(ToFixed(x, 100), 100)
    ensures 0.0 <= x ==> x - 0.005 < ToFixed(x, 100) <= x + 0.005
    ensures x < 0.0 ==> x - 0.005 <= ToFixed(x, 100) < x + 0.005
    ensures 0.0 <= x ==> 0.0 <= ToFixed(x, 100)
    ensures x <= 0.0 ==> ToFixed(x, 100) <= 0.0
  {
    var r := ToFixed(x, 100);
    if x >= 0.0 {
      var n := (x * 100.0 + 0.5).Floor;
      assert r == n as real / 100.0;
      assert n as real <= x * 100.0 + 0.5 < n as real + 1.0;
      assert r * 100.0 == n as real;
    } else {
      var n := (-x * 100.0 + 0.5).Floor;
      assert r == -(n as real) / 100.0;
      assert n as real <= -x * 100.0 + 0.5 < n as real + 1.0;
      assert r * 100.0 == -(n as real);
      assert (-(n as real)).Floor == -n;
    }
  }

  /** `Math.round(x * 10) / 10`: one decimal, halves going up. */
  function RoundTenths(x: real): (r: real)
    ensures x - 0.05 < r <= x + 0.05
  {
    var n := JsRound(x * 10.0);
    assert n as real / 10.0 * 10.0 == n as real;
    n as real / 10.0
  }

  /** The result lies on the tenths grid. */
  lemma RoundTenthsOnGrid(x: real)
    ensures OnGrid(RoundTenths(x), 10)
  {
    var n := JsRound(x * 10.0);
    var r := n as real / 10.0;
    assert r == RoundTenths(x);
    assert r * 10.0 == n as real;
    assert (r * 10.0).Floor == n;
    assert OnGrid(r, 10);
  }

  lemma RoundTenthsMonotone(x: real, y: real)
    requires x <= y
    ensures RoundTenths(x) <= RoundTenths(y)
  {
    assert (x * 10.0 + 0.5).Floor <= (y * 10.0 + 0.5).Floor;
  }

  /** A value on the tenths grid is left alone, and so is any value less
      than half a tenth below it. */
  lemma {:induction false} RoundTenthsSnaps(x: real, g: real)
    requires OnGrid(g, 10)
    requires g - 0.05 < x <= g
    ensures RoundTenths(x) == g
  {
    var k := (g * 10.0).Floor;
    assert k as real == g * 10.0;
    assert k as real < x * 10.0 + 0.5 <= k as real + 0.5;
    assert (x * 10.0 + 0.5).Floor == k;
  }
}

=== FILE: scenario.dfy ===
/** A worked example: a 70 kg patient with primary immunodeficiency at
    0.4 g/kg on the standard scale. The dose is 28 g, i.e. 280 ml, split
    into two 10 g vials, one 5 g vial and two 2.5 g vials; the infusion
    climbs through 0.3, 0.6, 1.2 and 2.4 ml/kg/h in full half-hour windows
    and finishes the last 122.5 ml at 4.8 ml/kg/h, 142 minutes in all. */
module Scenario {
  import opened Rounding
  import opened Constants
  import opened Dosing
  import opened VialCursor
  import opened Scheduler
  import opened ScheduleProperties
  import opened Trams
  import opened ClinicalData
  import opened App

  const Weight := 70.0
  const Volume70 := 280.0

  /** Entering 70 kg on the initial screen gives 28 g, 280 ml and the vials
      2 × 10 g, 1 × 5 g, 2 × 2.5 g. */
  lemma WeightEntry()
    ensures var s := Dispatch(Init, SetWeight(Weight));
            && s.prescription == Prescription(IDP, 0.4, 28.0)
            && s.counts == VialCounts(2, 1, 2)
            && Volume(s) == Volume70
  {
    InitialState();
    FloorIs(2800.5, 2800);
    assert TotalDose(Weight, 0.4) == 28.0;
    FloorIs(2.8, 2);
    FloorIs(1.6, 1);
    FloorIs(-1.2, -2);
    assert AutoVials(28.0) == VialCounts(2, 1, 2);
    TwentyEightGrams();
  }

  const Inp := Inputs(Weight, Volume70, [0.3, 0.6, 1.2, 2.4, 4.8, 7.2])

  const Step1 := RawStep(1, 0.3, 21.0, 0.0, 30.0, 10.5, 0.0, 10.5)
  const Step2 := RawStep(2, 0.6, 42.0, 30.0, 30.0, 21.0, 10.5, 31.5)
  const Step3 := RawStep(3, 1.2, 84.0, 60.0, 30.0, 42.0, 31.5, 73.5)
  const Step4 := RawStep(4, 2.4, 168.0, 90.0, 30.0, 84.0, 73.5, 157.5)
  const Step5 := RawStep(5, 4.8, 336.0, 120.0, 21.875, 122.5, 157.5, 280.0)

  lemma LastWindow()
    ensures Ramp(Inp, 4, Progress(5, 157.5, 120.0)) == Run([Step5], Progress(6, 280.0, 141.875))
  {
    assert IsLast(Inp, 4, Progress(5, 157.5, 120.0));
  }

  lemma FourthWindow()
    ensures Ramp(Inp, 3, Progress(4, 73.5, 90.0)).steps == [Step4, Step5]
  {
    assert !IsLast(Inp, 3, Progress(4, 73.5, 90.0));
    assert RampStep(Inp, 3, Progress(4, 73.5, 90.0)) == Run([Step4], Progress(5, 157.5, 120.0));
    LastWindow();
  }

  lemma ThirdWindow()
    ensures Ramp(Inp, 2, Progress(3, 31.5, 60.0)).steps == [Step3, Step4, Step5]
  {
    assert !IsLast(Inp, 2, Progress(3, 31.5, 60.0));
    assert RampStep(Inp, 2, Progress(3, 31.5, 60.0)) == Run([Step3], Progress(4, 73.5, 90.0));
    FourthWindow();
  }

  lemma SecondWindow()
    ensures Ramp(Inp, 1, Progress(2, 10.5, 30.0)).steps == [Step2, Step3, Step4, Step5]
  {
    assert !IsLast(Inp, 1, Progress(2, 10.5, 30.0));
    assert RampStep(Inp, 1, Progress(2, 10.5, 30.0)) == Run([Step2], Progress(3, 31.5, 60.0));
    ThirdWindow();
  }

  /** The five steps of the example, with their unrounded times in minutes
      and volumes in ml. */
  lemma ExampleSteps()
    ensures Steps(Weight, Volume70, IDP, false) == [Step1, Step2, Step3, Step4, Step5]
  {
    assert RateList(false, IDP) == Inp.rates;
    assert !IsLast(Inp, 0, Initial);
    assert RampStep(Inp, 0, Initial) == Run([Step1], Progress(2, 10.5, 30.0));
    SecondWindow();
  }

  const Vials := [100, 100, 50, 25, 25]

  lemma ExampleVials()
    ensures Flatten(VialCounts(2, 1, 2)) == Vials
  {
    assert Repeat(100, 2) == [100, 100];
    assert Repeat(50, 1) == [50];
    assert Repeat(25, 2) == [25, 25];
  }

  const Noted := [NotedStep(Step1, [100]), NotedStep(Step2, []), NotedStep(Step3, []),
                  NotedStep(Step4, [100]), NotedStep(Step5, [50, 25, 25])]

  const C3 := Cursor(0, 73.5)
  const C4 := Cursor(1, 57.5)
  const C5 := Cursor(4, 5.0)

  /** The last step empties the second 100 ml vial and opens the 50 ml and
      both 25 ml vials, leaving 5 ml used of the last one. */
  lemma LastStepNote()
    ensures VialNote(Vials, 157.5, 280.0, C4) == Note([50, 25, 25], C5)
  {
    assert Consume(Vials, 5.0, Cursor(4, 0.0)) == Note([], C5);
    assert Consume(Vials, 30.0, Cursor(3, 0.0)) == Note([25], C5);
    assert Consume(Vials, 80.0, Cursor(2, 0.0)) == Note([25, 25], C5);
  }

  /** The fourth step overflows the first vial into the second. */
  lemma FourthStepNote()
    ensures VialNote(Vials, 73.5, 157.5, C3) == Note([100], C4)
  {
    assert Consume(Vials, 57.5, Cursor(1, 0.0)) == Note([], C4);
  }

  /* The next four lemmas annotate the example's steps from the back, one
     step more each time, so that each unfolds `Annotate` only once and
     the solver never has to evaluate the whole list in one go. */

  /** Annotating the last two steps from where the third leaves the cursor. */
  lemma LastTwoNotes()
    ensures Annotate(Vials, [Step4, Step5], C3) == Annotation(Noted[3..], C5)
  {
    LastStepNote();
    FourthStepNote();
    assert Annotate(Vials, [Step5], C4) == Annotation(Noted[4..], C5);
    assert [Step4, Step5][1..] == [Step5];
  }

  /** Annotating the last three steps, reusing `LastTwoNotes`. */
  lemma LastThreeNotes()
    ensures Annotate(Vials, [Step3, Step4, Step5], Cursor(0, 31.5)) == Annotation(Noted[2..], C5)
  {
    LastTwoNotes();
    assert VialNote(Vials, 31.5, 73.5, Cursor(0, 31.5)) == Note([], C3);
    assert [Step3, Step4, Step5][1..] == [Step4, Step5];
  }

  /** Annotating the last four steps, reusing `LastThreeNotes`. */
  lemma LastFourNotes()
    ensures Annotate(Vials, [Step2, Step3, Step4, Step5], Cursor(0, 10.5)) == Annotation(Noted[1..], C5)
  {
    LastThreeNotes();
    assert VialNote(Vials, 10.5, 31.5, Cursor(0, 10.5)) == Note([], Cursor(0, 31.5));
    assert [Step2, Step3, Step4, Step5][1..] == [Step3, Step4, Step5];
  }

  /** Annotating all five steps from the start, reusing `LastFourNotes`. */
  lemma AllNotes()
    ensures Annotate(Vials, [Step1, Step2, Step3, Step4, Step5], Start) == Annotation(Noted, C5)
  {
    LastFourNotes();
    assert VialNote(Vials, 0.0, 10.5, Start) == Note([100], Cursor(0, 10.5));
    assert [Step1, Step2, Step3, Step4, Step5][1..] == [Step2, Step3, Step4, Step5];
  }

  /** The first step opens the first 100 ml vial; the fourth overflows it
      into the second; the fifth uses that up and opens the 50 ml and both
      25 ml vials. */
  lemma ExampleNotes()
    ensures Schedule(Weight, Volume70, IDP, VialCounts(2, 1, 2), false) == Noted
  {
    ExampleSteps();
    ExampleVials();
    AllNotes();
  }

  /** The last row as displayed. */
  const LastRow := AdminTram(5, 120, 142, 4.8, 336.0, 122.5, 280.0, 0.0,
                             VialLabel(50) + " + " + VialLabel(25) + " + " + VialLabel(25))

  /** The labels the last row shows. */
  lemma ExampleLabels()
    ensures VialLabel(50) == "Vial 50ml" && VialLabel(25) == "Vial 25ml"
  {
    assert NatToString(50) == NatToString(5) + [DigitChar(0)];
    assert NatToString(25) == NatToString(2) + [DigitChar(5)];
  }

  lemma ExampleNoteText()
    ensures NoteText([50, 25, 25]) == VialLabel(50) + " + " + VialLabel(25) + " + " + VialLabel(25)
  {
    assert [50, 25, 25][1..] == [25, 25];
    assert [25, 25][1..] == [25];
  }

  lemma ExampleLastRow()
    ensures Row(Volume70, Noted[4]) == LastRow
  {
    FloorIs(120.5, 120);
    FloorIs(142.375, 142);
    FloorIs(3360.5, 3360);
    FloorIs(1225.5, 1225);
    FloorIs(2800.5, 2800);
    FloorIs(0.5, 0);
    ExampleNoteText();
  }

  /** The example's table has five rows; the last shows minutes 120 to 142
      at 336 ml/h, 122.5 ml completing the 280 ml with nothing remaining,
      and the 50 ml and two 25 ml vials; the total time is 142 minutes. */
  lemma ExampleTable()
    ensures var rows := Table(Weight, Volume70, IDP, VialCounts(2, 1, 2), false);
            && |rows| == 5
            && rows[4] == LastRow
            && TotalTime(rows) == 142
  {
    ExampleNotes();
    RowAt(Volume70, Noted, 4);
    ExampleLastRow();
  }
}

=== FILE: schedule_lemmas.dfy ===
/** What the scheduler guarantees: steps numbered without gaps and laid end
    to end in time and volume, each delivering its volume at its rate, the
    rates rising along the list and then repeating the last one, the total
    reached within the tolerance, and the vials announced once each, in
    opening order. */
module ScheduleLemmas {
  import opened Rounding
  import opened Constants
  import opened Dosing
  import opened VialCursor
  import opened Scheduler

  /** `b` starts where `a` ends: next number, same clock, same volume. */
  predicate Follows(a: RawStep, b: RawStep)
  {
    && b.step == a.step + 1
    && b.startTime == a.EndTime()
    && b.startVolume == a.endVolume
  }

  /** Step `k` starts where step `k - 1` ends. */
  predicate FollowsAt(steps: seq<RawStep>, k: int)
    requires 0 < k < |steps|
  {
    Follows(steps[k - 1], steps[k])
  }

  /** The steps run from the state `p` to the state `q` without gaps. */
  predicate Linked(steps: seq<RawStep>, p: Progress, q: Progress)
  {
    && |steps| > 0
    && steps[0].step == p.nextStep
    && steps[0].startTime == p.time
    && steps[0].startVolume == p.accumulated
    && (forall k :: 0 < k < |steps| ==> FollowsAt(steps, k))
    && q.nextStep == steps[|steps| - 1].step + 1
    && q.time == steps[|steps| - 1].EndTime()
    && q.accumulated == steps[|steps| - 1].endVolume
  }

  /** A step delivers a positive volume at its rate, for exactly the time
      that volume takes, without passing the total. */
  predicate Sound(inp: Inputs, s: RawStep)
  {
    && s.rateMlh == s.rateMlKgH * inp.weight
    && s.rateMlh > 0.0
    && 0.0 < s.volume
    && s.endVolume == s.startVolume + s.volume
    && s.endVolume <= inp.total
    && s.duration == s.volume / s.rateMlh * 60.0
  }

  /** A step that fills its whole 30-minute window. */
  predicate FullWindow(s: RawStep)
  {
    s.volume == HalfHourVolume(s.rateMlh) && s.duration == 30.0
  }

  /** The run stops at the right step: every step but the last ends more
      than the tolerance short of the total, so the loop had reason to go
      on, and the last one delivers no more than its 30-minute window plus
      `slack`. */
  predicate StopsInTime(inp: Inputs, steps: seq<RawStep>, slack: real)
  {
    && |steps| > 0
    && (forall k :: 0 <= k < |steps| - 1 ==> steps[k].endVolume < inp.total - Epsilon)
    && steps[|steps| - 1].volume <= HalfHourVolume(steps[|steps| - 1].rateMlh) + slack
  }

  /** The last step either fills its whole 30-minute window or ends exactly
      on the total. */
  predicate EndsFullOrExact(inp: Inputs, steps: seq<RawStep>)
  {
    |steps| > 0 && (FullWindow(steps[|steps| - 1]) || steps[|steps| - 1].endVolume == inp.total)
  }

  lemma HalfHourTakesThirty(rateMlh: real)
    requires rateMlh > 0.0
    ensures HalfHourVolume(rateMlh) / rateMlh * 60.0 == 30.0
  {
    var v := rateMlh * 0.5;
    assert v / rateMlh == 0.5;
  }

  lemma {:induction false} LinkedCons(s: RawStep, tail: seq<RawStep>, p: Progress, q: Progress, f: Progress)
    requires Linked([s], p, q)
    requires Linked(tail, q, f)
    ensures Linked([s] + tail, p, f)
  {
    var all := [s] + tail;
    forall k | 0 < k < |all|
      ensures FollowsAt(all, k)
    {
      if k > 1 {
        assert FollowsAt(tail, k - 1);
        assert all[k - 1] == tail[k - 2] && all[k] == tail[k - 1];
      }
    }
  }

  /** A single step of the rate loop: linked, sound, at the `i`-th rate;
      the last one lands exactly on the total, any other fills its window
      and stays more than the tolerance short of the total. */
  lemma RampStepFacts(inp: Inputs, i: nat, p: Progress)
    requires Runnable(inp)
    requires i < |inp.rates|
    requires 0.0 <= p.accumulated < inp.total
    ensures Linked(RampStep(inp, i, p).steps, p, RampStep(inp, i, p).final)
    ensures Sound(inp, RampStep(inp, i, p).steps[0])
    ensures RampStep(inp, i, p).steps[0].rateMlKgH == inp.rates[i]
    ensures IsLast(inp, i, p) ==> RampStep(inp, i, p).final.accumulated == inp.total
    ensures !IsLast(inp, i, p) ==> FullWindow(RampStep(inp, i, p).steps[0])
    ensures !IsLast(inp, i, p) ==> RampStep(inp, i, p).final.accumulated < inp.total - Epsilon
    ensures IsLast(inp, i, p) ==>
              RampStep(inp, i, p).steps[0].volume
              <= HalfHourVolume(RampStep(inp, i, p).steps[0].rateMlh) + Epsilon
    ensures p.accumulated < RampStep(inp, i, p).final.accumulated
  {
    var rateMlh := inp.rates[i] * inp.weight;
    PositiveProduct(inp.rates[i], inp.weight);
    if !IsLast(inp, i, p) {
      HalfHourTakesThirty(rateMlh);
    }
  }

  /** A single fallback window: linked, sound, at the given rate, never
      past the total, and full unless it is the last. Its volume is the
      smaller of the window and what is left, so it either fills the window
      or ends exactly on the total. */
  lemma FallbackStepFacts(inp: Inputs, rate: real, p: Progress)
    requires inp.weight > 0.0 && rate > 0.0
    requires p.accumulated < inp.total - Epsilon
    ensures Linked(FallbackStep(inp, rate, p).steps, p, FallbackStep(inp, rate, p).final)
    ensures Sound(inp, FallbackStep(inp, rate, p).steps[0])
    ensures FallbackStep(inp, rate, p).steps[0].rateMlKgH == rate
    ensures FallbackStep(inp, rate, p).final.accumulated < inp.total - Epsilon ==>
              FullWindow(FallbackStep(inp, rate, p).steps[0])
    ensures FallbackStep(inp, rate, p).steps[0].volume
            <= HalfHourVolume(FallbackStep(inp, rate, p).steps[0].rateMlh)
    ensures FullWindow(FallbackStep(inp, rate, p).steps[0])
            || FallbackStep(inp, rate, p).steps[0].endVolume == inp.total
    ensures p.accumulated < FallbackStep(inp, rate, p).final.accumulated
  {
    var rateMlh := rate * inp.weight;
    PositiveProduct(rate, inp.weight);
    HalfHourTakesThirty(rateMlh);
  }

  /** One turn of the fallback loop: a window, then the loop again from
      where the window ends, with the loop's measure strictly smaller. */
  lemma FallbackUnfold(inp: Inputs, rate: real, p: Progress)
    requires inp.weight > 0.0 && rate > 0.0
    requires p.accumulated < inp.total - Epsilon
    ensures Fallback(inp, rate, p)
            == Then(FallbackStep(inp, rate, p), Fallback(inp, rate, FallbackStep(inp, rate, p).final))
    ensures FallbackStep(inp, rate, p).final.accumulated <= inp.total
    ensures FallbackMeasure(inp.total, FallbackStep(inp, rate, p).final.accumulated,
                            HalfHourVolume(rate * inp.weight))
            < FallbackMeasure(inp.total, p.accumulated, HalfHourVolume(rate * inp.weight))
  {
    PositiveProduct(rate, inp.weight);
    var window := HalfHourVolume(rate * inp.weight);
    assert FallbackStep(inp, rate, p).final.accumulated
        == p.accumulated + Min(window, inp.total - p.accumulated);
    FallbackMeasureDrops(inp.total, p.accumulated, window);
  }

  /** The fallback loop, once entered, lays its windows end to end from
      where it started. */
  lemma {:induction false} FallbackLinked(inp: Inputs, rate: real, p: Progress)
    requires inp.weight > 0.0 && rate > 0.0
    requires p.accumulated < inp.total - Epsilon
    ensures Linked(Fallback(inp, rate, p).steps, p, Fallback(inp, rate, p).final)
    decreases FallbackMeasure(inp.total, p.accumulated, HalfHourVolume(rate * inp.weight))
  {
    var head := FallbackStep(inp, rate, p);
    var q := head.final;
    var tail := Fallback(inp, rate, q);
    FallbackUnfold(inp, rate, p);
    FallbackStepFacts(inp, rate, p);
    if q.accumulated < inp.total - Epsilon {
      FallbackLinked(inp, rate, q);
      LinkedCons(head.steps[0], tail.steps, p, q, tail.final);
      assert Fallback(inp, rate, p).steps == [head.steps[0]] + tail.steps;
    } else {
      assert tail.steps == [];
      assert Fallback(inp, rate, p).steps == head.steps;
    }
  }

  /** The fallback loop stops inside the tolerance of the total, never
      past it. */
  lemma {:induction false} FallbackEnds(inp: Inputs, rate: real, p: Progress)
    requires inp.weight > 0.0 && rate > 0.0
    requires p.accumulated < inp.total - Epsilon
    ensures inp.total - Epsilon <= Fallback(inp, rate, p).final.accumulated <= inp.total
    decreases FallbackMeasure(inp.total, p.accumulated, HalfHourVolume(rate * inp.weight))
  {
    var q := FallbackStep(inp, rate, p).final;
    FallbackUnfold(inp, rate, p);
    if q.accumulated < inp.total - Epsilon {
      FallbackEnds(inp, rate, q);
    }
  }

  /** The fallback loop goes on exactly while it is more than the tolerance
      short of the total: every window before the last ended short, and the
      last is capped at its 30-minute window, which it either fills or ends
      exactly on the total. */
  lemma {:induction false} FallbackStops(inp: Inputs, rate: real, p: Progress)
    requires inp.weight > 0.0 && rate > 0.0
    requires p.accumulated < inp.total - Epsilon
    ensures StopsInTime(inp, Fallback(inp, rate, p).steps, 0.0)
    ensures EndsFullOrExact(inp, Fallback(inp, rate, p).steps)
    decreases FallbackMeasure(inp.total, p.accumulated, HalfHourVolume(rate * inp.weight))
  {
    var head := FallbackStep(inp, rate, p);
    var q := head.final;
    var r := Fallback(inp, rate, p);
    var tail := Fallback(inp, rate, q);
    FallbackUnfold(inp, rate, p);
    FallbackStepFacts(inp, rate, p);
    if q.accumulated < inp.total - Epsilon {
      FallbackStops(inp, rate, q);
      assert r.steps == [head.steps[0]] + tail.steps;
      forall k | 0 < k < |r.steps|
        ensures r.steps[k] == tail.steps[k - 1]
      {
      }
    } else {
      assert r.steps == head.steps;
    }
  }

  /** Every fallback window is sound and runs at the one repeated rate;
      every window but the last is a full one and ended more than the
      tolerance short of the total; the last is capped at its window, and
      either fills it or ends exactly on the total. */
  lemma {:induction false} FallbackSteps(inp: Inputs, rate: real, p: Progress)
    requires inp.weight > 0.0 && rate > 0.0
    requires p.accumulated < inp.total - Epsilon
    ensures forall k :: 0 <= k < |Fallback(inp, rate, p).steps| ==>
              Sound(inp, Fallback(inp, rate, p).steps[k])
              && Fallback(inp, rate, p).steps[k].rateMlKgH == rate
    ensures forall k :: 0 <= k < |Fallback(inp, rate, p).steps| - 1 ==>
              FullWindow(Fallback(inp, rate, p).steps[k])
    ensures forall k :: 0 <= k < |Fallback(inp, rate, p).steps| - 1 ==>
              Fallback(inp, rate, p).steps[k].endVolume < inp.total - Epsilon
    ensures |Fallback(inp, rate, p).steps| > 0
    ensures var s := Fallback(inp, rate, p).steps;
            s[|s| - 1].volume <= HalfHourVolume(s[|s| - 1].rateMlh)
    ensures var s := Fallback(inp, rate, p).steps;
            FullWindow(s[|s| - 1]) || s[|s| - 1].endVolume == inp.total
    decreases FallbackMeasure(inp.total, p.accumulated, HalfHourVolume(rate * inp.weight))
  {
    FallbackStops(inp, rate, p);
    var head := FallbackStep(inp, rate, p);
    var q := head.final;
    var r := Fallback(inp, rate, p);
    var tail := Fallback(inp, rate, q);
    FallbackUnfold(inp, rate, p);
    FallbackStepFacts(inp, rate, p);
    if q.accumulated < inp.total - Epsilon {
      FallbackSteps(inp, rate, q);
      assert r.steps == [head.steps[0]] + tail.steps;
      forall k | 0 < k < |r.steps|
        ensures r.steps[k] == tail.steps[k - 1]
      {
      }
    } else {
      assert r.steps == head.steps;
    }
  }

  /** The rate loop from index `i` lays its steps end to end and ends within
      the tolerance of the total, exactly on it when it did not need to
      fall back. */
  lemma {:induction false} RampLinked(inp: Inputs, i: nat, p: Progress)
    requires Runnable(inp)
    requires i < |inp.rates|
    requires 0.0 <= p.accumulated < inp.total
    ensures Linked(Ramp(inp, i, p).steps, p, Ramp(inp, i, p).final)
    ensures inp.total - Epsilon <= Ramp(inp, i, p).final.accumulated <= inp.total
    ensures |Ramp(inp, i, p).steps| <= |inp.rates| - i ==>
              Ramp(inp, i, p).final.accumulated == inp.total
    decreases |inp.rates| - i
  {
    var head := RampStep(inp, i, p);
    RampStepFacts(inp, i, p);
    var q := head.final;
    var r := Ramp(inp, i, p);
    if IsLast(inp, i, p) {
      assert r == head;
    } else if i == |inp.rates| - 1 {
      var tail := Fallback(inp, inp.rates[i], q);
      assert r == Then(head, tail);
      FallbackLinked(inp, inp.rates[i], q);
      FallbackEnds(inp, inp.rates[i], q);
      LinkedCons(head.steps[0], tail.steps, p, q, tail.final);
      assert r.steps == [head.steps[0]] + tail.steps;
    } else {
      var tail := Ramp(inp, i + 1, q);
      assert r == Then(head, tail);
      RampLinked(inp, i + 1, q);
      LinkedCons(head.steps[0], tail.steps, p, q, tail.final);
      assert r.steps == [head.steps[0]] + tail.steps;
    }
  }

  /** The rate loop goes on while a full window would stay more than the
      tolerance short of the total: every step before the last ended
      short, and the last delivers at most its window plus the tolerance,
      either filling it or ending exactly on the total. */
  lemma {:induction false} RampStops(inp: Inputs, i: nat, p: Progress)
    requires Runnable(inp)
    requires i < |inp.rates|
    requires 0.0 <= p.accumulated < inp.total
    ensures StopsInTime(inp, Ramp(inp, i, p).steps, Epsilon)
    ensures EndsFullOrExact(inp, Ramp(inp, i, p).steps)
    decreases |inp.rates| - i
  {
    var head := RampStep(inp, i, p);
    RampStepFacts(inp, i, p);
    var q := head.final;
    var r := Ramp(inp, i, p);
    if IsLast(inp, i, p) {
      assert r == head;
    } else if i == |inp.rates| - 1 {
      var tail := Fallback(inp, inp.rates[i], q);
      assert r == Then(head, tail);
      FallbackStops(inp, inp.rates[i], q);
      assert r.steps == [head.steps[0]] + tail.steps;
      forall k | 0 < k < |r.steps|
        ensures r.steps[k] == tail.steps[k - 1]
      {
      }
    } else {
      var tail := Ramp(inp, i + 1, q);
      assert r == Then(head, tail);
      RampStops(inp, i + 1, q);
      assert r.steps == [head.steps[0]] + tail.steps;
      forall k | 0 < k < |r.steps|
        ensures r.steps[k] == tail.steps[k - 1]
      {
      }
    }
  }

  /** The inductive part of `RampSteps`: soundness, rates and full windows
      along the rate loop from index `i`. */
  lemma {:induction false} RampWindows(inp: Inputs, i: nat, p: Progress)
    requires Runnable(inp)
    requires i < |inp.rates|
    requires 0.0 <= p.accumulated < inp.total
    ensures forall k :: 0 <= k < |Ramp(inp, i, p).steps| ==>
              Sound(inp, Ramp(inp, i, p).steps[k])
    ensures forall k :: 0 <= k < |Ramp(inp, i, p).steps| ==>
              Ramp(inp, i, p).steps[k].rateMlKgH == inp.rates[RateIndex(i + k, |inp.rates|)]
    ensures forall k :: 0 <= k < |Ramp(inp, i, p).steps| - 1 ==>
              FullWindow(Ramp(inp, i, p).steps[k])
    decreases |inp.rates| - i
  {
    var head := RampStep(inp, i, p);
    RampStepFacts(inp, i, p);
    var q := head.final;
    var r := Ramp(inp, i, p);
    if IsLast(inp, i, p) {
      assert r == head;
    } else if i == |inp.rates| - 1 {
      var tail := Fallback(inp, inp.rates[i], q);
      assert r == Then(head, tail);
      FallbackSteps(inp, inp.rates[i], q);
      assert r.steps == [head.steps[0]] + tail.steps;
      forall k | 0 < k < |r.steps|
        ensures r.steps[k] == tail.steps[k - 1]
      {
      }
    } else {
      var tail := Ramp(inp, i + 1, q);
      assert r == Then(head, tail);
      RampWindows(inp, i + 1, q);
      assert r.steps == [head.steps[0]] + tail.steps;
      forall k | 0 < k < |r.steps|
        ensures r.steps[k] == tail.steps[k - 1]
      {
      }
    }
  }

  /** Every step of the rate loop from index `i` is sound; the rates follow
      the list from `i` and then repeat its last entry; every step but the
      last fills its 30-minute window and ended more than the tolerance
      short of the total; the last delivers at most its window plus the
      tolerance, and either fills it or ends exactly on the total. */
  lemma RampSteps(inp: Inputs, i: nat, p: Progress)
    requires Runnable(inp)
    requires i < |inp.rates|
    requires 0.0 <= p.accumulated < inp.total
    ensures forall k :: 0 <= k < |Ramp(inp, i, p).steps| ==>
              Sound(inp, Ramp(inp, i, p).steps[k])
    ensures forall k :: 0 <= k < |Ramp(inp, i, p).steps| ==>
              Ramp(inp, i, p).steps[k].rateMlKgH == inp.rates[RateIndex(i + k, |inp.rates|)]
    ensures forall k :: 0 <= k < |Ramp(inp, i, p).steps| - 1 ==>
              FullWindow(Ramp(inp, i, p).steps[k])
    ensures forall k :: 0 <= k < |Ramp(inp, i, p).steps| - 1 ==>
              Ramp(inp, i, p).steps[k].endVolume < inp.total - Epsilon
    ensures |Ramp(inp, i, p).steps| > 0
    ensures var s := Ramp(inp, i, p).steps;
            s[|s| - 1].volume <= HalfHourVolume(s[|s| - 1].rateMlh) + Epsilon
    ensures var s := Ramp(inp, i, p).steps;
            FullWindow(s[|s| - 1]) || s[|s| - 1].endVolume == inp.total
  {
    RampWindows(inp, i, p);
    RampStops(inp, i, p);
  }
}

=== FILE: schedule_properties.dfy ===
/** The scheduler's guarantees for a whole computation: steps numbered
    1, 2, 3, … and laid end to end from minute 0 and volume 0, each
    delivering a positive volume at its rate without passing the total,
    the rates rising along the list and then repeating its last entry, the
    accumulated volume rising to within the tolerance of the total, and
    the vials announced once each, in opening order. */
module ScheduleProperties {
  import opened Rounding
  import opened Constants
  import opened Dosing
  import opened VialCursor
  import opened Scheduler
  import opened ScheduleLemmas

  /** Along a linked chain of sound steps the numbers count up from the
      first, and the volume and the clock only move forward. */
  lemma {:induction false} ChainAt(inp: Inputs, steps: seq<RawStep>, p: Progress, q: Progress, k: nat)
    requires Linked(steps, p, q)
    requires forall j :: 0 <= j < |steps| ==> Sound(inp, steps[j])
    requires k < |steps|
    ensures steps[k].step == p.nextStep + k
    ensures p.accumulated <= steps[k].startVolume < steps[k].endVolume
    ensures 0 < k ==> p.accumulated < steps[k].startVolume
    ensures p.time <= steps[k].startTime < steps[k].EndTime()
    decreases k
  {
    PositiveDuration(inp, steps[k]);
    if 0 < k {
      ChainAt(inp, steps, p, q, k - 1);
      assert FollowsAt(steps, k);
    }
  }

  lemma PositiveDuration(inp: Inputs, s: RawStep)
    requires Sound(inp, s)
    ensures 0.0 < s.duration
  {
    var x := s.volume / s.rateMlh;
    assert 0.0 < x;
  }

  /** A later step starts no earlier, in volume and in time, than an
      earlier one ends. */
  lemma {:induction false} ChainOrdered(inp: Inputs, steps: seq<RawStep>, p: Progress, q: Progress, i: nat, j: nat)
    requires Linked(steps, p, q)
    requires forall k :: 0 <= k < |steps| ==> Sound(inp, steps[k])
    requires i < j < |steps|
    ensures steps[i].endVolume <= steps[j].startVolume
    ensures steps[i].EndTime() <= steps[j].startTime
    decreases j - i
  {
    assert FollowsAt(steps, j);
    if i + 1 < j {
      ChainOrdered(inp, steps, p, q, i, j - 1);
      ChainAt(inp, steps, p, q, j - 1);
    }
  }

  /** What the rate loop works on for a given prescription. */
  function Inputs0(weight: real, total: real, ind: Indication, flexible: bool): Inputs
  {
    Inputs(weight, total, RateList(flexible, ind))
  }

  /** A non-positive weight or total volume gives no steps at all. */
  lemma EmptyWhenNothingToInfuse(weight: real, total: real, ind: Indication,
                                 counts: VialCounts, flexible: bool)
    requires weight <= 0.0 || total <= 0.0
    ensures Steps(weight, total, ind, flexible) == []
    ensures Schedule(weight, total, ind, counts, flexible) == []
  {
  }

  /** With something to infuse there is at least one step; the steps are
      numbered 1, 2, 3, … and each starts where the previous one ended,
      from minute 0 and volume 0; the final volume is within the tolerance
      of the total and equals it when no fallback window was needed. */
  lemma StepsLinked(weight: real, total: real, ind: Indication, flexible: bool)
    requires weight > 0.0 && total > 0.0
    ensures var s := Steps(weight, total, ind, flexible);
            && |s| > 0
            && s[0].startTime == 0.0 && s[0].startVolume == 0.0
            && (forall k :: 0 <= k < |s| ==> s[k].step == k + 1)
            && (forall k :: 0 < k < |s| ==> Follows(s[k - 1], s[k]))
            && total - Epsilon <= s[|s| - 1].endVolume <= total
            && (|s| <= |RateList(flexible, ind)| ==> s[|s| - 1].endVolume == total)
  {
    var inp := Inputs0(weight, total, ind, flexible);
    var r := Ramp(inp, 0, Initial);
    RampLinked(inp, 0, Initial);
    RampSteps(inp, 0, Initial);
    forall k | 0 <= k < |r.steps|
      ensures r.steps[k].step == k + 1
    {
      ChainAt(inp, r.steps, Initial, r.final, k);
    }
    forall k | 0 < k < |r.steps|
      ensures Follows(r.steps[k - 1], r.steps[k])
    {
      assert FollowsAt(r.steps, k);
    }
  }

  /** Every step delivers a positive volume at its rate for exactly the
      time that volume takes; the accumulated volume rises step by step
      and never passes the total, so the remaining volume is never
      negative. */
  lemma StepsDeliver(weight: real, total: real, ind: Indication, flexible: bool)
    requires weight > 0.0 && total > 0.0
    ensures var s := Steps(weight, total, ind, flexible);
            && (forall k :: 0 <= k < |s| ==> Sound(Inputs0(weight, total, ind, flexible), s[k]))
            && (forall k :: 0 <= k < |s| ==>
                  0.0 <= s[k].startVolume < s[k].endVolume <= total
                  && 0.0 <= total - s[k].endVolume)
            && (forall i, j :: 0 <= i < j < |s| ==>
                  s[i].endVolume <= s[j].startVolume && s[i].EndTime() <= s[j].startTime)
  {
    var inp := Inputs0(weight, total, ind, flexible);
    var r := Ramp(inp, 0, Initial);
    RampLinked(inp, 0, Initial);
    RampSteps(inp, 0, Initial);
    forall k | 0 <= k < |r.steps|
      ensures 0.0 <= r.steps[k].startVolume < r.steps[k].endVolume
    {
      ChainAt(inp, r.steps, Initial, r.final, k);
    }
    forall i, j | 0 <= i < j < |r.steps|
      ensures r.steps[i].endVolume <= r.steps[j].startVolume
      ensures r.steps[i].EndTime() <= r.steps[j].startTime
    {
      ChainOrdered(inp, r.steps, Initial, r.final, i, j);
    }
  }

  /** No step passes the total, and the last one ends within the tolerance
      of it. */
  lemma StepsEndNearTotal(weight: real, total: real, ind: Indication, flexible: bool)
    requires weight > 0.0 && total > 0.0
    ensures var s := Steps(weight, total, ind, flexible);
            && |s| > 0
            && (forall k :: 0 <= k < |s| ==> s[k].endVolume <= total)
            && total - Epsilon <= s[|s| - 1].endVolume
  {
    var inp := Inputs0(weight, total, ind, flexible);
    RampLinked(inp, 0, Initial);
    RampSteps(inp, 0, Initial);
  }

  /** Step `k` runs at the `k`-th rate of the list, and once the list is
      exhausted at its last rate, so the rates never decrease. */
  lemma StepsFollowRates(weight: real, total: real, ind: Indication, flexible: bool)
    requires weight > 0.0 && total > 0.0
    ensures var s := Steps(weight, total, ind, flexible);
            var rates := RateList(flexible, ind);
            && (forall k :: 0 <= k < |s| ==> s[k].rateMlKgH == rates[RateIndex(k, |rates|)])
            && (forall i, j :: 0 <= i < j < |s| ==> s[i].rateMlKgH <= s[j].rateMlKgH)
  {
    RampFollowsRates(Inputs0(weight, total, ind, flexible));
  }

  /** The rate loop from the start runs step k at the rate the list gives
      it, and over an increasing list the rates never decrease. */
  lemma RampFollowsRates(inp: Inputs)
    requires Runnable(inp)
    requires StrictlyIncreasing(inp.rates)
    ensures var s := Ramp(inp, 0, Initial).steps;
            && (forall k :: 0 <= k < |s| ==> s[k].rateMlKgH == inp.rates[RateIndex(k, |inp.rates|)])
            && (forall i, j :: 0 <= i < j < |s| ==> s[i].rateMlKgH <= s[j].rateMlKgH)
  {
    var s := Ramp(inp, 0, Initial).steps;
    RampRateAt(inp);
    forall i, j | 0 <= i < j < |s|
      ensures s[i].rateMlKgH <= s[j].rateMlKgH
    {
      var a := RateIndex(i, |inp.rates|);
      var b := RateIndex(j, |inp.rates|);
      assert s[i].rateMlKgH == inp.rates[a] && s[j].rateMlKgH == inp.rates[b];
      assert a <= b;
    }
  }

  lemma RampRateAt(inp: Inputs)
    requires Runnable(inp)
    ensures var s := Ramp(inp, 0, Initial).steps;
            forall k :: 0 <= k < |s| ==> s[k].rateMlKgH == inp.rates[RateIndex(k, |inp.rates|)]
  {
    var s := Ramp(inp, 0, Initial).steps;
    RampSteps(inp, 0, Initial);
    forall k | 0 <= k < |s|
      ensures s[k].rateMlKgH == inp.rates[RateIndex(k, |inp.rates|)]
    {
      assert s[k].rateMlKgH == inp.rates[RateIndex(0 + k, |inp.rates|)];
    }
  }

  /** The steps stop at the right one: every step but the last delivers
      what its rate gives in 30 minutes, in exactly 30 minutes, and ends
      more than the tolerance short of the total; the last delivers at
      most its 30-minute volume plus the tolerance, and either fills its
      window or ends exactly on the total. */
  lemma StepsFillWindows(weight: real, total: real, ind: Indication, flexible: bool)
    requires weight > 0.0 && total > 0.0
    ensures var s := Steps(weight, total, ind, flexible);
            forall k :: 0 <= k < |s| - 1 ==>
              s[k].volume == s[k].rateMlh * 0.5 && s[k].duration == 30.0
    ensures var s := Steps(weight, total, ind, flexible);
            forall k :: 0 <= k < |s| - 1 ==> s[k].endVolume < total - Epsilon
    ensures var s := Steps(weight, total, ind, flexible);
            |s| > 0 && s[|s| - 1].volume <= s[|s| - 1].rateMlh * 0.5 + Epsilon
    ensures var s := Steps(weight, total, ind, flexible);
            |s| > 0
            && ((s[|s| - 1].volume == s[|s| - 1].rateMlh * 0.5 && s[|s| - 1].duration == 30.0)
                || s[|s| - 1].endVolume == total)
  {
    var inp := Inputs0(weight, total, ind, flexible);
    var s := Ramp(inp, 0, Initial).steps;
    RampSteps(inp, 0, Initial);
    forall k | 0 <= k < |s| - 1
      ensures s[k].volume == s[k].rateMlh * 0.5 && s[k].duration == 30.0
    {
      assert FullWindow(s[k]);
    }
  }

  /** Every vial announced by the steps, in step order. */
  function AllVials(steps: seq<NotedStep>): seq<int>
  {
    if |steps| == 0 then [] else steps[0].vialsOpened + AllVials(steps[1..])
  }

  /** Annotating a non-empty list notes its first step and then annotates
      the rest from the cursor that note leaves behind. */
  lemma AnnotateUnfold(vials: seq<int>, steps: seq<RawStep>, c: Cursor)
    requires c.pointer <= |vials|
    requires |steps| > 0
    ensures var note := VialNote(vials, steps[0].startVolume, steps[0].endVolume, c);
            var rest := Annotate(vials, steps[1..], note.cursor);
            var r := Annotate(vials, steps, c);
            && r.cursor == rest.cursor
            && r.steps[0].vialsOpened == note.announced
            && AllVials(r.steps) == note.announced + AllVials(rest.steps)
  {
    var note := VialNote(vials, steps[0].startVolume, steps[0].endVolume, c);
    var rest := Annotate(vials, steps[1..], note.cursor);
    var r := Annotate(vials, steps, c);
    assert r.steps[1..] == rest.steps;
  }

  /** Annotating keeps every step and its order. */
  lemma {:induction false} AnnotateKeepsSteps(vials: seq<int>, steps: seq<RawStep>, c: Cursor)
    requires c.pointer <= |vials|
    ensures var r := Annotate(vials, steps, c);
            |r.steps| == |steps| && forall k :: 0 <= k < |steps| ==> r.steps[k].raw == steps[k]
    decreases |steps|
  {
    if |steps| > 0 {
      var note := VialNote(vials, steps[0].startVolume, steps[0].endVolume, c);
      AnnotateKeepsSteps(vials, steps[1..], note.cursor);
    }
  }

  /** Past the first step the cursor is never restarted, so the steps
      announce, between them, exactly the vials the cursor passes over. */
  lemma {:induction false} AnnotateFrom(vials: seq<int>, steps: seq<RawStep>, c: Cursor)
    requires c.pointer <= |vials|
    requires forall k :: 0 <= k < |steps| ==> steps[k].startVolume != 0.0
    ensures var r := Annotate(vials, steps, c);
            && c.pointer <= r.cursor.pointer
            && AllVials(r.steps)
               == vials[AnnouncedCount(vials, c.pointer)..AnnouncedCount(vials, r.cursor.pointer)]
    decreases |steps|
  {
    if |steps| > 0 {
      var note := VialNote(vials, steps[0].startVolume, steps[0].endVolume, c);
      var rest := Annotate(vials, steps[1..], note.cursor);
      AnnotateUnfold(vials, steps, c);
      VialNoteAnnounces(vials, steps[0].startVolume, steps[0].endVolume, c);
      AnnotateFrom(vials, steps[1..], note.cursor);
      var a := AnnouncedCount(vials, c.pointer);
      var b := AnnouncedCount(vials, note.cursor.pointer);
      var e := AnnouncedCount(vials, rest.cursor.pointer);
      assert a <= b <= e;
      assert vials[a..e] == vials[a..b] + vials[b..e];
    }
  }

  /** A computation that starts at volume zero announces, between all its
      steps, a prefix of the vial list: the first vial first, then each
      further vial once, in list order. */
  lemma {:induction false} AnnotateFromZero(vials: seq<int>, steps: seq<RawStep>)
    requires |steps| > 0 && steps[0].startVolume == 0.0
    requires forall k :: 0 < k < |steps| ==> steps[k].startVolume != 0.0
    ensures var r := Annotate(vials, steps, Start);
            AllVials(r.steps) == vials[..AnnouncedCount(vials, r.cursor.pointer)]
  {
    var note := VialNote(vials, steps[0].startVolume, steps[0].endVolume, Start);
    var rest := Annotate(vials, steps[1..], note.cursor);
    AnnotateUnfold(vials, steps, Start);
    VialNoteAnnounces(vials, steps[0].startVolume, steps[0].endVolume, Start);
    AnnotateFrom(vials, steps[1..], note.cursor);
    if |vials| > 0 {
      var b := AnnouncedCount(vials, note.cursor.pointer);
      var e := AnnouncedCount(vials, rest.cursor.pointer);
      assert vials[..e] == vials[..b] + vials[b..e];
    } else {
      assert note.announced == [];
    }
  }

  /** The schedule keeps the computed steps in order and adds only their
      vial notes. */
  lemma ScheduleKeepsSteps(weight: real, total: real, ind: Indication, counts: VialCounts,
                           flexible: bool)
    requires counts.NonNegative()
    ensures var s := Schedule(weight, total, ind, counts, flexible);
            var t := Steps(weight, total, ind, flexible);
            |s| == |t| && forall k :: 0 <= k < |s| ==> s[k].raw == t[k]
  {
    if weight > 0.0 && total > 0.0 {
      AnnotateKeepsSteps(Flatten(counts), Steps(weight, total, ind, flexible), Start);
    }
  }

  /** Only the first step of a computation starts at volume zero. */
  lemma StepsStartAtZeroOnce(weight: real, total: real, ind: Indication, flexible: bool)
    requires weight > 0.0 && total > 0.0
    ensures var t := Steps(weight, total, ind, flexible);
            && |t| > 0 && t[0].startVolume == 0.0
            && forall k :: 0 < k < |t| ==> 0.0 < t[k].startVolume
  {
    var inp := Inputs0(weight, total, ind, flexible);
    var r := Ramp(inp, 0, Initial);
    RampLinked(inp, 0, Initial);
    RampSteps(inp, 0, Initial);
    forall k | 0 < k < |r.steps|
      ensures 0.0 < r.steps[k].startVolume
    {
      ChainAt(inp, r.steps, Initial, r.final, k);
    }
  }

  /** Steps of which only the first starts at volume zero announce a
      prefix of the vial list, the first vial first when there is one, and
      nothing at all when there is none. */
  lemma AnnouncedPrefix(vials: seq<int>, steps: seq<RawStep>)
    requires |steps| > 0 && steps[0].startVolume == 0.0
    requires forall k :: 0 < k < |steps| ==> 0.0 < steps[k].startVolume
    ensures var s := Annotate(vials, steps, Start).steps;
            && AllVials(s) <= vials
            && (|vials| > 0 ==> |s[0].vialsOpened| > 0 && s[0].vialsOpened[0] == vials[0])
            && (|vials| == 0 ==> forall k :: 0 <= k < |s| ==> s[k].vialsOpened == [])
  {
    var r := Annotate(vials, steps, Start);
    AnnotateFromZero(vials, steps);
    AnnotateUnfold(vials, steps, Start);
    if |vials| == 0 {
      forall k | 0 <= k < |r.steps|
        ensures r.steps[k].vialsOpened == []
      {
        NoVialsNoNotes(steps, Start, k);
      }
    }
  }

  /** The vials announced over the whole schedule are a prefix of the vial
      list, so no vial is announced twice and they come in 100, 50, 25 ml
      order; the first step announces the first vial whenever there is
      one, and an empty inventory gives empty notes. */
  lemma ScheduleAnnouncesVials(weight: real, total: real, ind: Indication, counts: VialCounts,
                               flexible: bool)
    requires weight > 0.0 && total > 0.0
    requires counts.NonNegative()
    ensures var s := Schedule(weight, total, ind, counts, flexible);
            var vials := Flatten(counts);
            var a := AllVials(s);
            && a <= vials
            && (forall i, j :: 0 <= i < j < |a| ==> a[i] >= a[j])
            && (forall k :: 0 <= k < |a| ==> a[k] == 100 || a[k] == 50 || a[k] == 25)
            && (|vials| > 0 ==> |s| > 0 && |s[0].vialsOpened| > 0 && s[0].vialsOpened[0] == vials[0])
            && (|vials| == 0 ==> forall k :: 0 <= k < |s| ==> s[k].vialsOpened == [])
  {
    var vials := Flatten(counts);
    var t := Steps(weight, total, ind, flexible);
    StepsStartAtZeroOnce(weight, total, ind, flexible);
    AnnouncedPrefix(vials, t);
    PrefixOfInventory(counts, AllVials(Annotate(vials, t, Start).steps));
  }

  /** Any prefix of the vial list runs from larger to smaller vials and
      holds only the three presentations. */
  lemma PrefixOfInventory(counts: VialCounts, a: seq<int>)
    requires counts.NonNegative()
    requires a <= Flatten(counts)
    ensures forall i, j :: 0 <= i < j < |a| ==> a[i] >= a[j]
    ensures forall k :: 0 <= k < |a| ==> a[k] == 100 || a[k] == 50 || a[k] == 25
  {
    FlattenOrder(counts);
    var vials := Flatten(counts);
    assert forall k :: 0 <= k < |a| ==> a[k] == vials[k];
  }

  /** Without vials no step announces anything. */
  lemma {:induction false} NoVialsNoNotes(steps: seq<RawStep>, c: Cursor, k: nat)
    requires c.pointer == 0
    requires k < |steps|
    ensures Annotate([], steps, c).steps[k].vialsOpened == []
    decreases k
  {
    var note := VialNote([], steps[0].startVolume, steps[0].endVolume, c);
    if 0 < k {
      NoVialsNoNotes(steps[1..], note.cursor, k - 1);
    }
  }
}

=== FILE: scheduler.dfy ===
/** The rate-escalation scheduler. Each rate of the list gets a 30-minute
    window; the step whose window covers what is left (within 0.01 ml)
    delivers exactly the rest and ends the schedule, and if even the last
    rate's window falls short, further windows at that rate follow until the
    total is reached. Every step carries the vials it opens.

    The vial note of a step depends only on the step's start and end volume
    and on the vial cursor, which nothing else reads; the notes are therefore
    computed in a second pass that threads the cursor through the finished
    steps in order, giving the same notes as computing them step by step. */
module Scheduler {
  import opened Rounding
  import opened Constants
  import opened Dosing
  import opened VialCursor

  /** The rates of a run, in ml/kg/h: the chosen scale, with the extra
      7.2 ml/kg/h rate appended when the indication is IDP. */
  function RateList(flexible: bool, ind: Indication): (rates: seq<real>)
    ensures StrictlyIncreasing(rates)
    ensures |rates| > 0 && rates[0] == 0.3
    ensures forall k :: 0 <= k < |rates| ==> 0.0 < rates[k]
    ensures rates[|rates| - 1] == IdpExtraRate <==> ind == IDP
    ensures var base := if flexible then FlexibleRates else StandardRates;
            && |rates| == |base| + (if ind == IDP then 1 else 0)
            && rates[..|base|] == base
  {
    IdpRateTopsBothScales();
    StandardScaleDoubles();
    FlexibleScaleRefinesStandard();
    var base := if flexible then FlexibleRates else StandardRates;
    if ind == IDP then base + [IdpExtraRate] else base
  }

  /** The index of the rate step `k` runs at in a list of `n` rates: the
      k-th while the list lasts, the last one after that. */
  function RateIndex(k: nat, n: nat): (r: nat)
    requires n > 0
    ensures r < n && r <= k
  {
    if k < n then k else n - 1
  }

  /** What one schedule computation works on: weight in kg, total volume in
      ml and the rate list. */
  datatype Inputs = Inputs(weight: real, total: real, rates: seq<real>)

  predicate Runnable(inp: Inputs)
  {
    && inp.weight > 0.0
    && inp.total > 0.0
    && |inp.rates| > 0
    && (forall k :: 0 <= k < |inp.rates| ==> 0.0 < inp.rates[k])
  }

  /** One step with its unrounded quantities: times in minutes, volumes in
      ml, `startVolume`/`endVolume` the accumulated volume before and after
      the step. */
  datatype RawStep = RawStep(
    step: nat,
    rateMlKgH: real,
    rateMlh: real,
    startTime: real,
    duration: real,
    volume: real,
    startVolume: real,
    endVolume: real)
  {
    function EndTime(): real
    {
      startTime + duration
    }
  }

  /** The running state between steps: the next step number, the volume
      delivered so far and the unrounded clock. */
  datatype Progress = Progress(nextStep: nat, accumulated: real, time: real)

  datatype Run = Run(steps: seq<RawStep>, final: Progress)

  const Initial: Progress := Progress(1, 0.0, 0.0)

  /** The volume a rate in ml/h delivers in a 30-minute window. */
  function HalfHourVolume(rateMlh: real): real
  {
    rateMlh * 0.5
  }

  lemma PositiveProduct(a: real, b: real)
    requires 0.0 < a && 0.0 < b
    ensures 0.0 < a * b
  {
  }

  /** Records one step of `volume` ml lasting `duration` minutes at the given
      rate, and advances the step number, the volume and the clock. */
  function Emit(inp: Inputs, rateMlKgH: real, volume: real, duration: real, p: Progress): Run
  {
    var endVolume := p.accumulated + volume;
    Run([RawStep(p.nextStep, rateMlKgH, rateMlKgH * inp.weight, p.time, duration,
                 volume, p.accumulated, endVolume)],
        Progress(p.nextStep + 1, endVolume, p.time + duration))
  }

  function Then(a: Run, b: Run): Run
  {
    Run(a.steps + b.steps, b.final)
  }

  /** Bound on the number of fallback windows still to come. */
  function FallbackMeasure(total: real, accumulated: real, window: real): nat
    requires 0.0 < window
  {
    if accumulated < total - Epsilon then
      var y := (total - accumulated) / window;
      assert 0.0 < y;
      y.Floor + 1
    else 0
  }

  lemma FallbackMeasureDrops(total: real, accumulated: real, window: real)
    requires 0.0 < window
    requires accumulated < total - Epsilon
    ensures FallbackMeasure(total, accumulated + Min(window, total - accumulated), window)
            < FallbackMeasure(total, accumulated, window)
  {
    var rest := total - accumulated;
    if window < rest {
      var y := rest / window;
      OneWindowLess(rest, window);
      assert (y - 1.0).Floor == y.Floor - 1;
    }
  }

  lemma OneWindowLess(rest: real, window: real)
    requires 0.0 < window
    ensures (rest - window) / window == rest / window - 1.0
  {
    var y := rest / window;
    var z := y - 1.0;
    var t := rest - window;
    assert y * window == rest;
    assert z * window == y * window - window;
    assert t == z * window;
    assert t / window == z * window / window;
    assert z * window / window == z;
  }

  /** Whether the window at rate `i` covers what is left, within the
      tolerance, so that its step is the last. */
  predicate IsLast(inp: Inputs, i: nat, p: Progress)
    requires i < |inp.rates|
  {
    HalfHourVolume(inp.rates[i] * inp.weight) >= (inp.total - p.accumulated) - Epsilon
  }

  /** The step of the rate loop at index `i`: the rest of the volume if it
      is the last, a full 30-minute window otherwise. */
  function RampStep(inp: Inputs, i: nat, p: Progress): Run
    requires Runnable(inp)
    requires i < |inp.rates|
  {
    var rateMlKgH := inp.rates[i];
    var rateMlh := rateMlKgH * inp.weight;
    PositiveProduct(rateMlKgH, inp.weight);
    var volPossible := HalfHourVolume(rateMlh);
    var remaining := inp.total - p.accumulated;
    var isLast := IsLast(inp, i, p);
    var volume := if isLast then remaining else volPossible;
    var duration := if isLast then volume / rateMlh * 60.0 else 30.0;
    Emit(inp, rateMlKgH, volume, duration, p)
  }

  /** The for-loop over the rates from index `i` on. */
  function Ramp(inp: Inputs, i: nat, p: Progress): Run
    requires Runnable(inp)
    requires i < |inp.rates|
    requires 0.0 <= p.accumulated < inp.total
    decreases |inp.rates| - i
  {
    var head := RampStep(inp, i, p);
    if IsLast(inp, i, p) then head
    else
      assert head.final.accumulated == p.accumulated + HalfHourVolume(inp.rates[i] * inp.weight);
      PositiveProduct(inp.rates[i], inp.weight);
      if i == |inp.rates| - 1 then
        if head.final.accumulated < inp.total - Epsilon then
          Then(head, Fallback(inp, inp.rates[i], head.final))
        else head
      else Then(head, Ramp(inp, i + 1, head.final))
  }

  /** One window of the fallback loop: a full window at `rateMlKgH`, or
      what is left if that is less. */
  function FallbackStep(inp: Inputs, rateMlKgH: real, p: Progress): Run
    requires inp.weight > 0.0 && rateMlKgH > 0.0
  {
    var rateMlh := rateMlKgH * inp.weight;
    PositiveProduct(rateMlKgH, inp.weight);
    var volPossible := HalfHourVolume(rateMlh);
    var extra := Min(volPossible, inp.total - p.accumulated);
    Emit(inp, rateMlKgH, extra, extra / rateMlh * 60.0, p)
  }

  /** The loop that repeats the last rate, each window capped at what is
      left, until the total is reached within the tolerance. */
  function Fallback(inp: Inputs, rateMlKgH: real, p: Progress): Run
    requires inp.weight > 0.0 && rateMlKgH > 0.0
    decreases FallbackMeasure(inp.total, p.accumulated,
                              HalfHourVolume(rateMlKgH * inp.weight))
  {
    PositiveProduct(rateMlKgH, inp.weight);
    if p.accumulated < inp.total - Epsilon then
      var head := FallbackStep(inp, rateMlKgH, p);
      var window := HalfHourVolume(rateMlKgH * inp.weight);
      assert head.final.accumulated == p.accumulated + Min(window, inp.total - p.accumulated);
      FallbackMeasureDrops(inp.total, p.accumulated, HalfHourVolume(rateMlKgH * inp.weight));
      Then(head, Fallback(inp, rateMlKgH, head.final))
    else
      Run([], p)
  }

  /** A step with the vials (in ml) it announces. */
  datatype NotedStep = NotedStep(raw: RawStep, vialsOpened: seq<int>)

  /** The noted steps and the cursor left after the last of them. */
  datatype Annotation = Annotation(steps: seq<NotedStep>, cursor: Cursor)

  /** Attaches to each step, in order, the vials it announces while the
      cursor moves from its start volume to its end volume. */
  function Annotate(vials: seq<int>, steps: seq<RawStep>, c: Cursor): (r: Annotation)
    requires c.pointer <= |vials|
    ensures |r.steps| == |steps|
    ensures r.cursor.pointer <= |vials|
    decreases |steps|
  {
    if |steps| == 0 then Annotation([], c)
    else
      var note := VialNote(vials, steps[0].startVolume, steps[0].endVolume, c);
      var rest := Annotate(vials, steps[1..], note.cursor);
      Annotation([NotedStep(steps[0], note.announced)] + rest.steps, rest.cursor)
  }

  /** The steps of the rate loop and its fallback, before the vial notes. */
  function Steps(weight: real, total: real, ind: Indication, flexible: bool): seq<RawStep>
  {
    if weight <= 0.0 || total <= 0.0 then []
    else Ramp(Inputs(weight, total, RateList(flexible, ind)), 0, Initial).steps
  }

  /** The whole schedule. A non-positive weight or total volume gives no
      steps; otherwise the vial counts must be non-negative, since the
      vial list is built from them. */
  function Schedule(weight: real, total: real, ind: Indication, counts: VialCounts,
                    flexible: bool): seq<NotedStep>
    requires weight > 0.0 && total > 0.0 ==> counts.NonNegative()
  {
    if weight <= 0.0 || total <= 0.0 then []
    else Annotate(Flatten(counts), Steps(weight, total, ind, flexible), Start).steps
  }
}

=== FILE: trams.dfy ===
/** The administration table as displayed: each step becomes a row with its
    start and end minute rounded to whole minutes, the hourly rate, step
    volume, cumulative volume and remaining volume rounded to one decimal,
    and the vial note as text; the total infusion time is the end minute of
    the last row. */
module Trams {
  import opened Rounding
  import opened Constants
  import opened Dosing
  import opened Scheduler
  import opened ScheduleLemmas
  import opened ScheduleProperties

  /** One row of the table. The start and end minutes are what the row's
      "start-end min" time range shows. */
  datatype AdminTram = AdminTram(
    step: nat,
    startMinute: int,
    endMinute: int,
    rateMlKgH: real,
    rateMlh: real,
    volumeInTram: real,
    cumulativeVolume: real,
    remainingVolume: real,
    vialNote: string)

  function DigitChar(d: nat): char
    requires d < 10
  {
    "0123456789"[d]
  }

  /** Decimal text of a natural number, as a template literal writes it. */
  function NatToString(n: nat): (s: string)
    ensures |s| > 0
    ensures forall k :: 0 <= k < |s| ==> '0' <= s[k] <= '9'
    decreases n
  {
    if n < 10 then [DigitChar(n)] else NatToString(n / 10) + [DigitChar(n % 10)]
  }

  /** Decimal text of an integer, with a leading minus sign when negative. */
  function IntToString(n: int): string
  {
    if n < 0 then "-" + NatToString(-n) else NatToString(n)
  }

  /** The value of a string of decimal digits. */
  function DigitsValue(s: string): nat
    requires forall k :: 0 <= k < |s| ==> '0' <= s[k] <= '9'
  {
    if |s| == 0 then 0
    else DigitsValue(s[..|s| - 1]) * 10 + ((s[|s| - 1] as int - '0' as int) as nat)
  }

  /** Reading the decimal text back gives the number. */
  lemma {:induction false} NatToStringRoundTrip(n: nat)
    ensures DigitsValue(NatToString(n)) == n
    decreases n
  {
    var s := NatToString(n);
    if n >= 10 {
      NatToStringRoundTrip(n / 10);
      assert s[..|s| - 1] == NatToString(n / 10);
      assert s[|s| - 1] == DigitChar(n % 10);
    }
  }

  /** "Vial 100ml" and the like. */
  function VialLabel(ml: int): string
  {
    "Vial " + IntToString(ml) + "ml"
  }

  /** The labels of the announced vials joined by " + ". */
  function NoteText(announced: seq<int>): string
  {
    if |announced| == 0 then ""
    else if |announced| == 1 then VialLabel(announced[0])
    else VialLabel(announced[0]) + " + " + NoteText(announced[1..])
  }

  /** The note is blank exactly when the step announces no vial, and then
      the table shows a dash; otherwise it starts with the first label. */
  lemma NoteTextBlank(announced: seq<int>)
    ensures NoteText(announced) == "" <==> |announced| == 0
    ensures |announced| > 0 ==> NoteText(announced)[..|VialLabel(announced[0])|] == VialLabel(announced[0])
  {
  }

  /** Building the note one vial at a time: a single vial is its label, and
      each further vial adds " + " and its label at the end. With
      `NoteTextBlank` this pins the note down as the labels in order joined
      by " + ". */
  lemma {:induction false} NoteTextAppend(announced: seq<int>, ml: int)
    ensures |announced| == 0 ==> NoteText(announced + [ml]) == VialLabel(ml)
    ensures |announced| > 0 ==>
              NoteText(announced + [ml]) == NoteText(announced) + " + " + VialLabel(ml)
    decreases |announced|
  {
    var all := announced + [ml];
    if |announced| == 1 {
      assert all[1..] == [ml];
    } else if |announced| > 1 {
      assert all[1..] == announced[1..] + [ml];
      NoteTextAppend(announced[1..], ml);
    }
  }

  /** A step as a table row, given the total volume to be infused. */
  function Row(total: real, s: NotedStep): AdminTram
  {
    var raw := s.raw;
    AdminTram(raw.step, JsRound(raw.startTime), JsRound(raw.EndTime()), raw.rateMlKgH,
              RoundTenths(raw.rateMlh), RoundTenths(raw.volume), RoundTenths(raw.endVolume),
              RoundTenths(Max(0.0, total - raw.endVolume)), NoteText(s.vialsOpened))
  }

  /** A row shows its step's number and rate per kg as they are, its start
      and end minute rounded to the nearest whole minute, and the other
      quantities each on the tenths grid within 0.05 of the unrounded value;
      the remaining volume is never negative, and the vial note is blank
      exactly when the step opens no vial. */
  lemma RowDisplays(total: real, s: NotedStep)
    ensures var row := Row(total, s);
            && row.step == s.raw.step
            && row.rateMlKgH == s.raw.rateMlKgH
            && row.startMinute as real - 0.5 <= s.raw.startTime < row.startMinute as real + 0.5
            && row.endMinute as real - 0.5 <= s.raw.EndTime() < row.endMinute as real + 0.5
            && s.raw.rateMlh - 0.05 < row.rateMlh <= s.raw.rateMlh + 0.05
            && s.raw.volume - 0.05 < row.volumeInTram <= s.raw.volume + 0.05
            && s.raw.endVolume - 0.05 < row.cumulativeVolume <= s.raw.endVolume + 0.05
            && OnGrid(row.rateMlh, 10) && OnGrid(row.volumeInTram, 10)
            && OnGrid(row.cumulativeVolume, 10) && OnGrid(row.remainingVolume, 10)
            && 0.0 <= row.remainingVolume
            && (row.vialNote == "" <==> |s.vialsOpened| == 0)
  {
    var raw := s.raw;
    RoundTenthsOnGrid(raw.rateMlh);
    RoundTenthsOnGrid(raw.volume);
    RoundTenthsOnGrid(raw.endVolume);
    var left := Max(0.0, total - raw.endVolume);
    var r := RoundTenths(left);
    RoundTenthsOnGrid(left);
    assert -0.5 < r * 10.0;
    assert (r * 10.0).Floor as real == r * 10.0;
    assert 0 <= (r * 10.0).Floor;
    NoteTextBlank(s.vialsOpened);
  }

  function Rows(total: real, steps: seq<NotedStep>): (rows: seq<AdminTram>)
    ensures |rows| == |steps|
  {
    if |steps| == 0 then [] else [Row(total, steps[0])] + Rows(total, steps[1..])
  }

  /** Row `k` of the table shows step `k`. */
  lemma {:induction false} RowAt(total: real, steps: seq<NotedStep>, k: nat)
    requires k < |steps|
    ensures Rows(total, steps)[k] == Row(total, steps[k])
    decreases k
  {
    if 0 < k {
      RowAt(total, steps[1..], k - 1);
    }
  }

  /** The table for a prescription: `weight` in kg, `total` the total volume
      in ml. */
  function Table(weight: real, total: real, ind: Indication, counts: VialCounts,
                 flexible: bool): seq<AdminTram>
    requires weight > 0.0 && total > 0.0 ==> counts.NonNegative()
  {
    Rows(total, Schedule(weight, total, ind, counts, flexible))
  }

  /** The total infusion time in minutes: the end minute of the last row, or
      0 without rows. */
  function TotalTime(rows: seq<AdminTram>): int
  {
    if |rows| == 0 then 0 else rows[|rows| - 1].endMinute
  }

  /** Sum of the unrounded step durations. */
  function TotalDuration(steps: seq<RawStep>): real
  {
    if |steps| == 0 then 0.0 else TotalDuration(steps[..|steps| - 1]) + steps[|steps| - 1].duration
  }

  /** Steps laid end to end from minute 0 end, each, after the sum of the
      durations up to and including it. */
  lemma {:induction false} EndTimeIsElapsed(steps: seq<RawStep>, k: nat)
    requires k < |steps|
    requires steps[0].startTime == 0.0
    requires forall j :: 0 < j < |steps| ==> Follows(steps[j - 1], steps[j])
    ensures steps[k].EndTime() == TotalDuration(steps[..k + 1])
    decreases k
  {
    assert steps[..k + 1][..k] == steps[..k];
    if 0 < k {
      EndTimeIsElapsed(steps, k - 1);
      assert Follows(steps[k - 1], steps[k]);
    }
  }

  /** Rows of steps numbered from 1 are numbered 1, 2, 3, …. */
  lemma RowsNumbered(total: real, ns: seq<NotedStep>, steps: seq<RawStep>)
    requires |ns| == |steps| && forall k :: 0 <= k < |ns| ==> ns[k].raw == steps[k]
    requires forall k :: 0 <= k < |steps| ==> steps[k].step == k + 1
    ensures var rows := Rows(total, ns);
            forall k :: 0 <= k < |rows| ==> rows[k].step == k + 1
  {
    var rows := Rows(total, ns);
    forall k | 0 <= k < |rows|
      ensures rows[k].step == k + 1
    {
      RowAt(total, ns, k);
      assert ns[k].raw == steps[k];
    }
  }

  /** Rows of steps laid end to end: each row's time range starts at the
      minute the previous one ends. */
  lemma RowsContiguous(total: real, ns: seq<NotedStep>, steps: seq<RawStep>)
    requires |ns| == |steps| && forall k :: 0 <= k < |ns| ==> ns[k].raw == steps[k]
    requires forall k :: 0 < k < |steps| ==> Follows(steps[k - 1], steps[k])
    ensures var rows := Rows(total, ns);
            forall k :: 0 < k < |rows| ==> rows[k].startMinute == rows[k - 1].endMinute
  {
    var rows := Rows(total, ns);
    forall k | 0 < k < |rows|
      ensures rows[k].startMinute == rows[k - 1].endMinute
    {
      RowAt(total, ns, k);
      RowAt(total, ns, k - 1);
      assert ns[k].raw == steps[k] && ns[k - 1].raw == steps[k - 1];
      assert Follows(steps[k - 1], steps[k]);
    }
  }

  /** Rows of steps laid end to end from minute 0: the first row starts at
      minute 0. */
  lemma RowsStartAtZero(total: real, ns: seq<NotedStep>)
    requires |ns| > 0 && ns[0].raw.startTime == 0.0
    ensures Rows(total, ns)[0].startMinute == 0
  {
    RowAt(total, ns, 0);
  }

  /** Rows of steps laid end to end from minute 0: the total time, the end
      minute of the last row, is the sum of the durations rounded to a whole
      minute. */
  lemma RowsTotalTime(total: real, ns: seq<NotedStep>, steps: seq<RawStep>)
    requires |ns| == |steps| && forall k :: 0 <= k < |ns| ==> ns[k].raw == steps[k]
    requires |steps| > 0 ==> steps[0].startTime == 0.0
    requires forall k :: 0 < k < |steps| ==> Follows(steps[k - 1], steps[k])
    ensures TotalTime(Rows(total, ns)) == JsRound(TotalDuration(steps))
  {
    if |ns| > 0 {
      RowAt(total, ns, |ns| - 1);
      assert ns[|ns| - 1].raw == steps[|steps| - 1];
      EndTimeIsElapsed(steps, |steps| - 1);
      assert steps[..|steps|] == steps;
    }
  }

  /** The rows are numbered 1, 2, 3, …; the first row's time range
      starts at minute 0 and each other one at the minute the previous one
      ends; and the total time is the sum of the step durations rounded to
      a whole minute. */
  predicate ShowsTimes(rows: seq<AdminTram>, steps: seq<RawStep>)
  {
    && |rows| == |steps|
    && (forall k :: 0 <= k < |rows| ==> rows[k].step == k + 1)
    && (|rows| > 0 ==> rows[0].startMinute == 0)
    && (forall k :: 0 < k < |rows| ==> rows[k].startMinute == rows[k - 1].endMinute)
    && TotalTime(rows) == JsRound(TotalDuration(steps))
  }

  /** Rows of steps numbered from 1 and laid end to end from minute 0 show
      their times as the table should. */
  lemma RowsShowTimes(total: real, ns: seq<NotedStep>, steps: seq<RawStep>)
    requires |ns| == |steps| && forall k :: 0 <= k < |ns| ==> ns[k].raw == steps[k]
    requires |steps| > 0 ==> steps[0].startTime == 0.0
    requires forall k :: 0 <= k < |steps| ==> steps[k].step == k + 1
    requires forall k :: 0 < k < |steps| ==> Follows(steps[k - 1], steps[k])
    ensures ShowsTimes(Rows(total, ns), steps)
  {
    RowsNumbered(total, ns, steps);
    RowsContiguous(total, ns, steps);
    if |ns| > 0 {
      assert ns[0].raw == steps[0];
      RowsStartAtZero(total, ns);
    }
    RowsTotalTime(total, ns, steps);
  }

  lemma TableTimes(weight: real, total: real, ind: Indication, counts: VialCounts,
                   flexible: bool)
    requires counts.NonNegative()
    ensures ShowsTimes(Table(weight, total, ind, counts, flexible), Steps(weight, total, ind, flexible))
  {
    var ns := Schedule(weight, total, ind, counts, flexible);
    var steps := Steps(weight, total, ind, flexible);
    ScheduleKeepsSteps(weight, total, ind, counts, flexible);
    if weight > 0.0 && total > 0.0 {
      StepsLinked(weight, total, ind, flexible);
    }
    RowsShowTimes(total, ns, steps);
    assert Table(weight, total, ind, counts, flexible) == Rows(total, ns);
  }

  /** Every row shows the rounded difference between the total and the
      volume delivered up to its step, never negative, and the last row
      shows 0. */
  predicate ShowsRemaining(total: real, rows: seq<AdminTram>, steps: seq<RawStep>)
  {
    && |rows| == |steps| > 0
    && (forall k :: 0 <= k < |rows| ==>
          rows[k].remainingVolume == RoundTenths(total - steps[k].endVolume)
          && 0.0 <= rows[k].remainingVolume)
    && rows[|rows| - 1].remainingVolume == 0.0
  }

  /** Rows of steps that never pass the total and end within the tolerance
      of it never clamp the remaining volume. */
  lemma RowsRemaining(total: real, ns: seq<NotedStep>, steps: seq<RawStep>)
    requires |ns| == |steps| > 0 && forall k :: 0 <= k < |ns| ==> ns[k].raw == steps[k]
    requires forall k :: 0 <= k < |steps| ==> steps[k].endVolume <= total
    requires total - Epsilon <= steps[|steps| - 1].endVolume
    ensures ShowsRemaining(total, Rows(total, ns), steps)
  {
    var rows := Rows(total, ns);
    forall k | 0 <= k < |rows|
      ensures rows[k].remainingVolume == RoundTenths(total - steps[k].endVolume)
      ensures 0.0 <= rows[k].remainingVolume
    {
      RowAt(total, ns, k);
      RowRemaining(total, ns[k]);
    }
    RowAt(total, ns, |ns| - 1);
    RowRemaining(total, ns[|ns| - 1]);
  }

  /** A step that does not pass the total shows the unclamped remaining
      volume, which is non-negative, and 0 when the step ends within the
      tolerance of the total. */
  lemma RowRemaining(total: real, s: NotedStep)
    requires s.raw.endVolume <= total
    ensures Row(total, s).remainingVolume == RoundTenths(total - s.raw.endVolume)
    ensures 0.0 <= Row(total, s).remainingVolume
    ensures total - Epsilon <= s.raw.endVolume ==> Row(total, s).remainingVolume == 0.0
  {
    var rest := total - s.raw.endVolume;
    RoundTenthsMonotone(0.0, rest);
    RoundTenthsSnaps(0.0, 0.0);
    if total - Epsilon <= s.raw.endVolume {
      assert JsRound(rest * 10.0) == 0;
    }
  }

  /** The remaining volume never needs its clamp at zero: every row shows
      the rounded difference between the total and the volume so far, and
      the last row shows 0. */
  lemma TableRemaining(weight: real, total: real, ind: Indication, counts: VialCounts,
                       flexible: bool)
    requires weight > 0.0 && total > 0.0
    requires counts.NonNegative()
    ensures ShowsRemaining(total, Table(weight, total, ind, counts, flexible),
                           Steps(weight, total, ind, flexible))
  {
    var ns := Schedule(weight, total, ind, counts, flexible);
    var steps := Steps(weight, total, ind, flexible);
    ScheduleKeepsSteps(weight, total, ind, counts, flexible);
    StepsEndNearTotal(weight, total, ind, flexible);
    RowsRemaining(total, ns, steps);
    assert Table(weight, total, ind, counts, flexible) == Rows(total, ns);
  }

  /** Rows of steps whose volume only rises show a cumulative column that
      never decreases. */
  lemma RowsCumulative(total: real, ns: seq<NotedStep>, steps: seq<RawStep>)
    requires |ns| == |steps| && forall k :: 0 <= k < |ns| ==> ns[k].raw == steps[k]
    requires forall i, j :: 0 <= i < j < |steps| ==> steps[i].endVolume <= steps[j].startVolume
    requires forall k :: 0 <= k < |steps| ==> steps[k].startVolume < steps[k].endVolume
    ensures var rows := Rows(total, ns);
            forall i, j :: 0 <= i < j < |rows| ==> rows[i].cumulativeVolume <= rows[j].cumulativeVolume
  {
    var rows := Rows(total, ns);
    forall i, j | 0 <= i < j < |rows|
      ensures rows[i].cumulativeVolume <= rows[j].cumulativeVolume
    {
      RowAt(total, ns, i);
      RowAt(total, ns, j);
      assert ns[i].raw == steps[i] && ns[j].raw == steps[j];
      assert steps[i].endVolume <= steps[j].startVolume < steps[j].endVolume;
      RoundTenthsMonotone(steps[i].endVolume, steps[j].endVolume);
    }
  }

  /** When the last step ends within the tolerance below a total on the
      tenths grid, the last row shows exactly that total. */
  lemma RowsCumulativeLast(total: real, ns: seq<NotedStep>)
    requires |ns| > 0 && total - Epsilon <= ns[|ns| - 1].raw.endVolume <= total
    requires OnGrid(total, 10)
    ensures Rows(total, ns)[|ns| - 1].cumulativeVolume == total
  {
    RowAt(total, ns, |ns| - 1);
    RoundTenthsSnaps(ns[|ns| - 1].raw.endVolume, total);
  }

  /** The cumulative column never decreases, and with a total on the tenths
      grid (as the total volume always is) the last row shows exactly the
      total. */
  predicate ShowsCumulative(total: real, rows: seq<AdminTram>)
  {
    && |rows| > 0
    && (forall i, j :: 0 <= i < j < |rows| ==> rows[i].cumulativeVolume <= rows[j].cumulativeVolume)
    && (OnGrid(total, 10) ==> rows[|rows| - 1].cumulativeVolume == total)
  }

  lemma RowsShowCumulative(total: real, ns: seq<NotedStep>, steps: seq<RawStep>)
    requires |ns| == |steps| > 0 && forall k :: 0 <= k < |ns| ==> ns[k].raw == steps[k]
    requires forall i, j :: 0 <= i < j < |steps| ==> steps[i].endVolume <= steps[j].startVolume
    requires forall k :: 0 <= k < |steps| ==> steps[k].startVolume < steps[k].endVolume
    requires total - Epsilon <= steps[|steps| - 1].endVolume <= total
    ensures ShowsCumulative(total, Rows(total, ns))
  {
    RowsCumulative(total, ns, steps);
    if OnGrid(total, 10) {
      assert ns[|ns| - 1].raw == steps[|steps| - 1];
      RowsCumulativeLast(total, ns);
    }
  }

  lemma TableCumulative(weight: real, total: real, ind: Indication, counts: VialCounts,
                        flexible: bool)
    requires weight > 0.0 && total > 0.0
    requires counts.NonNegative()
    ensures ShowsCumulative(total, Table(weight, total, ind, counts, flexible))
  {
    var ns := Schedule(weight, total, ind, counts, flexible);
    var steps := Steps(weight, total, ind, flexible);
    ScheduleKeepsSteps(weight, total, ind, counts, flexible);
    StepsLinked(weight, total, ind, flexible);
    StepsDeliver(weight, total, ind, flexible);
    RowsShowCumulative(total, ns, steps);
    assert Table(weight, total, ind, counts, flexible) == Rows(total, ns);
  }
}

=== FILE: vialcursor.dfy ===
/** The vial-opening cursor. The schedule walks the flattened list of vial
    volumes with a cursor that remembers which vial is open and how much of
    it has been used, and each step announces the vials it opens. */
module VialCursor {
  import opened Rounding
  import opened Dosing

  /** `pointer` indexes the open vial; it equals the list length once every
      vial has been used up. */
  datatype Cursor = Cursor(pointer: nat, usedInCurrentVial: real)

  /** The vials a step announces, in ml, and the cursor it leaves behind. */
  datatype Note = Note(announced: seq<int>, cursor: Cursor)

  const Start: Cursor := Cursor(0, 0.0)

  /** How many vials have been announced once the cursor points at
      `pointer`: every vial up to and including the open one. */
  function AnnouncedCount(vials: seq<int>, pointer: nat): (n: nat)
    ensures n <= |vials|
    ensures pointer < |vials| ==> n == pointer + 1
    ensures |vials| <= pointer ==> n == |vials|
  {
    if pointer < |vials| then pointer + 1 else |vials|
  }

  /** Spreads `remaining` ml over the vials from the cursor on: a span that
      overflows the open vial (beyond the tolerance) uses the vial up and
      opens the next one, announcing it; a span that fits is absorbed into
      the open vial. Once the list is used up nothing more is announced. */
  function Consume(vials: seq<int>, remaining: real, c: Cursor): (r: Note)
    requires c.pointer <= |vials|
    ensures c.pointer <= r.cursor.pointer <= |vials|
    decreases |vials| - c.pointer
  {
    if remaining > Epsilon && c.pointer < |vials| then
      var capacityLeft := vials[c.pointer] as real - c.usedInCurrentVial;
      if remaining > capacityLeft + Epsilon then
        var next := c.pointer + 1;
        if next < |vials| then
          var rest := Consume(vials, remaining - capacityLeft, Cursor(next, 0.0));
          Note([vials[next]] + rest.announced, rest.cursor)
        else
          Consume(vials, remaining - capacityLeft, Cursor(next, c.usedInCurrentVial))
      else
        Note([], Cursor(c.pointer, c.usedInCurrentVial + remaining))
    else
      Note([], c)
  }

  /** The vials a span announces are exactly those the cursor moves onto,
      in list order: the ones after the open vial, up to and including the
      vial left open. */
  lemma {:induction false} ConsumeAnnounces(vials: seq<int>, remaining: real, c: Cursor)
    requires c.pointer <= |vials|
    ensures var r := Consume(vials, remaining, c);
            r.announced == vials[AnnouncedCount(vials, c.pointer)..AnnouncedCount(vials, r.cursor.pointer)]
    decreases |vials| - c.pointer
  {
    if remaining > Epsilon && c.pointer < |vials| {
      var capacityLeft := vials[c.pointer] as real - c.usedInCurrentVial;
      if remaining > capacityLeft + Epsilon {
        var next := c.pointer + 1;
        ConsumeAnnounces(vials, remaining - capacityLeft, Cursor(next, if next < |vials| then 0.0 else c.usedInCurrentVial));
        if next < |vials| {
          var rest := Consume(vials, remaining - capacityLeft, Cursor(next, 0.0));
          var e := AnnouncedCount(vials, rest.cursor.pointer);
          assert vials[next..e] == [vials[next]] + vials[next + 1..e];
        }
      }
    }
  }

  /** The note for the step that takes the running volume from `startVol` to
      `endVol`. A step that starts at volume zero first announces the first
      vial and restarts the cursor on it. */
  function VialNote(vials: seq<int>, startVol: real, endVol: real, c: Cursor): (r: Note)
    requires c.pointer <= |vials|
    ensures r.cursor.pointer <= |vials|
    ensures !(startVol == 0.0 && |vials| > 0) ==> c.pointer <= r.cursor.pointer
  {
    if startVol == 0.0 && |vials| > 0 then
      var rest := Consume(vials, endVol - startVol, Start);
      Note([vials[0]] + rest.announced, rest.cursor)
    else
      Consume(vials, endVol - startVol, c)
  }

  /** A step that starts at volume zero announces every vial from the first
      up to the one left open; any other step announces the vials after the
      one open before it, up to the one left open. */
  lemma VialNoteAnnounces(vials: seq<int>, startVol: real, endVol: real, c: Cursor)
    requires c.pointer <= |vials|
    ensures var r := VialNote(vials, startVol, endVol, c);
            && (startVol == 0.0 && |vials| > 0 ==>
                  r.announced == vials[..AnnouncedCount(vials, r.cursor.pointer)])
            && (!(startVol == 0.0 && |vials| > 0) ==>
                  r.announced == vials[AnnouncedCount(vials, c.pointer)..AnnouncedCount(vials, r.cursor.pointer)])
  {
    if startVol == 0.0 && |vials| > 0 {
      var rest := Consume(vials, endVol - startVol, Start);
      ConsumeAnnounces(vials, endVol - startVol, Start);
      assert vials[..AnnouncedCount(vials, rest.cursor.pointer)]
          == [vials[0]] + vials[1..AnnouncedCount(vials, rest.cursor.pointer)];
    } else {
      ConsumeAnnounces(vials, endVol - startVol, c);
    }
  }

  /** Volume drawn from the vials so far: the full vials before the open one
      plus what has been used of the open one. */
  function Position(vials: seq<int>, c: Cursor): real
    requires c.pointer <= |vials|
  {
    Sum(vials[..c.pointer]) as real + c.usedInCurrentVial
  }

  /** Over a list of real (positive) vials, a cursor that has not run off
      the end never over-fills its vial by more than the tolerance. */
  predicate Sane(vials: seq<int>, c: Cursor)
  {
    && (forall k :: 0 <= k < |vials| ==> 0 < vials[k])
    && c.pointer <= |vials|
    && 0.0 <= c.usedInCurrentVial
    && (c.pointer < |vials| ==> c.usedInCurrentVial <= vials[c.pointer] as real + Epsilon)
  }

  /** While the list lasts, a span above the tolerance moves the cursor's
      position forward by exactly the span, and a span within the tolerance
      leaves the cursor where it was. The next vial is opened exactly when
      the span exceeds what is left in the open one by more than the
      tolerance; a smaller overflow stays in the open vial. The cursor runs
      off the end only when the span would carry it more than the tolerance
      past everything the vials hold. The cursor stays sane throughout. */
  lemma {:induction false} ConsumeConserves(vials: seq<int>, remaining: real, c: Cursor)
    requires Sane(vials, c)
    requires 0.0 <= remaining
    ensures Sane(vials, Consume(vials, remaining, c).cursor)
    ensures remaining <= Epsilon ==> Consume(vials, remaining, c) == Note([], c)
    ensures remaining > Epsilon && Consume(vials, remaining, c).cursor.pointer < |vials| ==>
              Position(vials, Consume(vials, remaining, c).cursor) == Position(vials, c) + remaining
    ensures remaining > Epsilon && c.pointer < |vials|
            && Consume(vials, remaining, c).cursor.pointer == |vials| ==>
              Position(vials, c) + remaining > Sum(vials) as real + Epsilon
    ensures remaining > Epsilon && c.pointer < |vials| ==>
              (Consume(vials, remaining, c).cursor.pointer == c.pointer
               <==> remaining <= vials[c.pointer] as real - c.usedInCurrentVial + Epsilon)
    decreases |vials| - c.pointer
  {
    if remaining > Epsilon && c.pointer < |vials| {
      var capacityLeft := vials[c.pointer] as real - c.usedInCurrentVial;
      if remaining > capacityLeft + Epsilon {
        var next := c.pointer + 1;
        assert vials[..next] == vials[..c.pointer] + [vials[c.pointer]];
        assert Sum(vials[..next]) == Sum(vials[..c.pointer]) + vials[c.pointer];
        assert vials[..|vials|] == vials;
        if next < |vials| {
          ConsumeConserves(vials, remaining - capacityLeft, Cursor(next, 0.0));
        } else {
          ConsumeConserves(vials, remaining - capacityLeft, Cursor(next, c.usedInCurrentVial));
        }
      }
    }
  }

  /** An overflow within the tolerance stays in the open vial: 100.005 ml
      from a fresh 100 ml vial opens nothing. */
  lemma SmallOverflowStaysInVial()
    ensures Consume([100, 50], 100.005, Cursor(0, 0.0)) == Note([], Cursor(0, 100.005))
  {
  }
}
